=== FILE: README.md ===
# JACC core, modelled in Dafny

JACC is a merchant-services assistant: a React client (chat screen, admin
console, gamification and leaderboard widgets, help page) in front of an
Express server. This project models the parts of it that have behaviour
you can state without a browser or a network:

- **Chat screen** (`ChatInterface`, chat.dfy). The compose buffer, the send
  pipeline, voice input and the render-state selection form one state
  record (`ChatState`) with one step function per event. Network results,
  the microphone permission prompt and the speech recogniser's callbacks
  arrive as event parameters. Requests, toasts and navigation come out as
  a list of `Effect`s.
- **Admin console** (`AdminPanel`, admin.dfy). The scenario, document and FAQ
  filters, the running-tests set, the expanded-prompts toggle, and the
  zero-guarded pass rate and average.
- **Gamification dashboard** (`Gamification`, gamification.dfy). Points to
  the next level, the display name, the rank badge, and the top-ten
  leaderboard card.
- **Leaderboard widget** (`LeaderboardWidget`, leaderboard.dfy). It
  normalises the response, slices to the limit, shows the "+N more" footer,
  sums the summary totals and picks each row's medal tier.
- **Help page** (`HelpPage`, help.dfy). It builds `tel:` links from the
  support numbers by deleting every non-digit.
- **Server** (`Server`, server.dfy). It filters, formats and truncates the
  API log line, matches the CORS allowlist (two literal origins and two
  unanchored `replit` patterns) and sets the headers that go with it, and
  picks the error handler's status and message.

Shared modules hold the JavaScript semantics the components rely on:

- `Common`: optional values, array-or-not payloads, truthiness.
- `Seqs`: order-preserving filter with an exact characterisation,
  `slice(0, n)`, and sums.
- `Text`: ECMAScript `trim`, ASCII `toLowerCase`, `includes`,
  `startsWith`, `endsWith`.
- `Numbers`: truncating `%`, `Math.round` of a ratio, and decimal
  rendering with its parser.

Behaviour worth noting:

- The microphone button stops recording when pressed while recording.
- Without a recogniser both microphone buttons are disabled
  (`disabled={!recognition}`), so the handler's "Voice not supported"
  toast is a guard that no click reaches.
- With the page's new-chat handler, the welcome dashboard's callback
  awaits it outside any `catch`: a rejection raises no toast there. The
  conversation-starter routine's own handler branch is never taken, since
  its one caller invokes it only when there is no handler.
- The buffer is cleared before the send, not on success. It is never
  restored.
- In the free-text path without a chat, the fallback navigates first. The
  first message is posted later by a timer.
- Results are not tagged with the chat id, and nothing stops the view from
  showing fewer messages than before.
- A failed send in the chat-id path raises the error toast twice: once
  from the mutation's `onError` and once from the submit handler's
  `catch`.
- An empty-string chat id counts as no chat, because the checks are
  truthiness tests.

## Model

| member | source | states |
|---|---|---|
| ChatInterface.Submit | client/src/components/chat-interface.tsx:360-401 | A blank trimmed buffer or a pending send leaves the state unchanged with no effects. Otherwise the buffer becomes "", the trimmed text is what is sent, and pending is set exactly when a chat is selected. With a chat, the one effect is the POST of the trimmed text as a user message. |
| ChatInterface.SendRequest | client/src/components/chat-interface.tsx:199-210 | Fails with "No active chat" exactly when the chat id is absent or empty. Otherwise it posts `{content, role: "user"}` to `/api/chats/{id}/messages`. |
| ChatInterface.SendResponse | client/src/components/chat-interface.tsx:212-214 | A non-ok response is a send failure; an ok response is not. |
| ChatInterface.SubmitWithoutChat | client/src/components/chat-interface.tsx:368-388 | Without a chat, the text goes to the page's handler and nothing else happens, except one send-failed toast on rejection. The fallback instead creates a "New Chat" and navigates to the returned id, or toasts when creation fails. |
| ChatInterface.SendSettled | client/src/components/chat-interface.tsx:218-243 | Settling clears pending and keeps the buffer as it is now. Success refreshes the messages and the chat list. Failure raises the two send-failure toasts. |
| ChatInterface.FailedSendClearsInput | client/src/components/chat-interface.tsx:362-399 | Submit then failure: exactly one POST of the trimmed text, an empty buffer afterwards, no pending send, and only error toasts. The text is not restored. |
| ChatInterface.NoSecondSendWhilePending | client/src/components/chat-interface.tsx:362 | While a send is pending, typing anything and then submitting issues no effect. |
| ChatInterface.PendingOnlyFromSubmit | client/src/components/chat-interface.tsx:362-391 | The only event that makes a send pending is a submit of non-blank text with a chat selected. |
| ChatInterface.VoiceResult | client/src/components/chat-interface.tsx:123-127 | The transcript is appended after the old buffer, recording stops, and nothing else changes. |
| ChatInterface.VoiceAppendExample | client/src/components/chat-interface.tsx:123-127 | "rate is " plus the transcript "twenty six percent" gives "rate is twenty six percent" and stops recording. |
| ChatInterface.RecognitionMessage | client/src/components/chat-interface.tsx:133-140 | Each of "not-allowed", "no-speech" and "network" gets its own text, and every other code gets the generic text. Each direction is an if-and-only-if. |
| ChatInterface.RecognitionMessageIdentifies | client/src/components/chat-interface.tsx:133-140 | Two error codes get the same description only when neither is one of the three known codes. |
| ChatInterface.VoiceError | client/src/components/chat-interface.tsx:129-147 | Recording stops and the buffer is untouched. Exactly one toast is raised: "Voice recognition error" with the description classified from the error code. |
| ChatInterface.ToggleMic | client/src/components/chat-interface.tsx:305-357 | No recogniser gives the unsupported toast; both buttons are disabled then, so no click reaches it. While recording, the button stops. Denied permission gives the microphone toast and no state change. A successful start begins recording. A throwing start gives the "already active" or the "failed to start" text depending on the error message. The buffer and pending flag never change. |
| ChatInterface.RecordingOnlyFromMic | client/src/components/chat-interface.tsx:339-342 | Recording starts only from the button, with a recogniser, granted permission and a start that does not throw. |
| ChatInterface.PermissionDeniedKeepsState | client/src/components/chat-interface.tsx:327-337 | Denied permission leaves the state exactly as it was and raises only the permission toast. |
| ChatInterface.Next | client/src/components/chat-interface.tsx:66-75 | No event changes the chat id or whether a recogniser exists. Typing sets the buffer to the textarea's value, and the recogniser's end only clears recording; neither has effects. |
| ChatInterface.VoiceEndedStopsRecording | client/src/components/chat-interface.tsx:149-151 | The recogniser's end handler stops recording, changes nothing else, and requests or shows nothing. |
| ChatInterface.TypedSetsInput | client/src/components/chat-interface.tsx:637 | Typing replaces the buffer with the textarea's value, changes nothing else, and has no effects. |
| ChatInterface.StartConversation | client/src/components/chat-interface.tsx:483-494 | The welcome callback only delegates exactly when the page's handler exists. Otherwise it starts by creating a chat and ends in the start-failed toast exactly when creation or the post fails. |
| ChatInterface.StartConversationContract | client/src/components/chat-interface.tsx:255-300 | The fallback first creates an active "New Chat", then posts the starter text verbatim to the created id. It navigates exactly when creation and post both succeed, and only to that id. The last effect is the start-failed toast exactly on a failure. A failed creation posts nothing: the effects are the create request and the toast. Nothing is delegated. |
| ChatInterface.StartConversationDelegates | client/src/components/chat-interface.tsx:483-486 | With the page's handler, the welcome callback only delegates the text, whether the handler resolves or rejects: no request and no toast. |
| ChatInterface.Render | client/src/components/chat-interface.tsx:549-626 | No chat shows the welcome screen. The spinner shows exactly when loading with no messages. The empty notice shows exactly when loaded with no messages. Otherwise the rows are the array as received. A non-array payload counts as empty. The typing row shows exactly while a send is pending in a selected chat. |
| ChatInterface.TypingRowTracksSend | client/src/components/chat-interface.tsx:611-626 | After a non-blank submit in a selected chat the typing row shows; after that send settles, on success or failure, it is gone. |
| AdminPanel.FilterScenarios | client/src/pages/unified-admin-panel.tsx:201-203 | "all" keeps the list unchanged. Any other category keeps exactly the scenarios of that category, in order, with every occurrence. |
| AdminPanel.FilterDocuments | client/src/pages/unified-admin-panel.tsx:205-217 | A non-array response gives []. Otherwise the result is an in-order subsequence, and a document is in it iff it is in the selected folder (when one is selected) and its name contains the term case-insensitively (when the term is non-empty). An unnamed document is dropped by a search. Every occurrence of a kept document is kept. |
| AdminPanel.FilterFaqs | client/src/pages/unified-admin-panel.tsx:219-225 | A non-array response gives []. An empty term keeps every entry. Otherwise the result keeps exactly the entries whose question or answer contains the term, in order. |
| AdminPanel.BeginRun | client/src/pages/unified-admin-panel.tsx:159 | Starting a test adds its id and keeps every other id as it was. |
| AdminPanel.EndRun | client/src/pages/unified-admin-panel.tsx:162-167 | Finishing a test, on success or after a throw, removes its id and keeps every other id as it was. |
| AdminPanel.RunTestRestores | client/src/pages/unified-admin-panel.tsx:158-169 | A full run of a test that was not running leaves the set as it was. Another test's id survives the run. |
| AdminPanel.ToggleExpanded | client/src/pages/unified-admin-panel.tsx:928-932 | A present id is removed, every occurrence of it. An absent id is appended at the end. Other ids keep their membership. |
| AdminPanel.ToggleTwice | client/src/pages/unified-admin-panel.tsx:928-932 | Toggling twice restores the id's membership, and restores the whole list when the id was absent. |
| AdminPanel.PassRate | client/src/pages/unified-admin-panel.tsx:353 | Zero scenarios give 0. Otherwise the result is the exact ratio 100·passed/total rounded half up, and lies in 0..100 when 0 ≤ passed ≤ total. |
| AdminPanel.AverageMessages | client/src/pages/unified-admin-panel.tsx:1377-1379 | No chats give 0. Otherwise the result is the nearest integer to the message total divided by the chat count. |
| Gamification.PointsToNextLevel | client/src/components/gamification-dashboard.tsx:185 | Points plus the result is a multiple of 100. For non-negative points the result is in 1..100 and complements the points earned in the level. Negative points give 100..199. |
| Gamification.DisplayName | client/src/components/gamification-dashboard.tsx:80-82 | Both names truthy gives first name, one space, last name. Anything else gives the username. |
| Gamification.RankBadge | client/src/components/gamification-dashboard.tsx:84-89 | Ranks 1, 2 and 3 each get their own icon. Every other rank gets a "#" label. |
| Gamification.BadgeLabelNamesRank | client/src/components/gamification-dashboard.tsx:88 | The text after "#" is the decimal rank and parses back to it. |
| Gamification.BadgesDistinct | client/src/components/gamification-dashboard.tsx:84-89 | Distinct positions never share a badge. |
| Gamification.LeaderboardEntries | client/src/components/gamification-dashboard.tsx:276-285 | At most ten rows. Row i shows user i at position i+1 with that position's badge, and is marked as the viewer exactly when the ids match. |
| Gamification.LeaderboardCard | client/src/components/gamification-dashboard.tsx:263-292 | Loading shows the skeleton. A non-empty list shows between one and ten entries: row i is the i-th user at position i+1, as the entry list characterises. Anything else shows the "be the first" invitation. |
| LeaderboardWidget.Agents | client/src/components/leaderboard-widget.tsx:35 | The `leaderboard` array of an object response is used as is. Every other shape gives no agents. |
| LeaderboardWidget.DisplayAgents | client/src/components/leaderboard-widget.tsx:36 | Full mode lists all agents. Otherwise the result is the prefix `slice(0, maxEntries)` keeps, including the negative-limit case. |
| LeaderboardWidget.MoreFooter | client/src/components/leaderboard-widget.tsx:192-198 | The footer shows exactly outside full mode when there are more agents than the limit. It counts the agents beyond the limit. For a non-negative limit, listed plus counted is all agents. |
| LeaderboardWidget.NoFooterShowsAll | client/src/components/leaderboard-widget.tsx:36-195 | For a non-negative limit, without a footer every agent is listed. |
| LeaderboardWidget.Summary | client/src/components/leaderboard-widget.tsx:76-96 | Totals show only in full mode, summed over every agent. |
| LeaderboardWidget.TotalsCoverUnlisted | client/src/components/leaderboard-widget.tsx:76-96 | The totals equal the listed rows' totals plus those of the agents past the limit. |
| LeaderboardWidget.TierOf | client/src/components/leaderboard-widget.tsx:100-143 | Indices 0, 1 and 2 get gold, silver and bronze. Every other index is plain. |
| LeaderboardWidget.Widget | client/src/components/leaderboard-widget.tsx:41-198 | No agents shows the empty state. Otherwise the rows are the displayed agents with their index tiers, plus the summary and the footer. The "Top N" caption shows exactly outside full mode, with N the entry limit. |
| LeaderboardWidget.DefaultPropsListFive | client/src/components/leaderboard-widget.tsx:29-195 | With default props at most five rows show, and rows plus the footer count are all agents. |
| HelpPage.TelDigitsAreDigits | client/src/pages/help.tsx:97 | The result is no longer than the number and is made of ASCII digits only. |
| HelpPage.TelDigitsSelects | client/src/pages/help.tsx:97 | The result keeps every digit of the number, in order, and nothing else. |
| HelpPage.TelHref | client/src/pages/help.tsx:97 | The link is "tel:" followed by the digits. |
| HelpPage.TelDigitsIdempotent | client/src/pages/help.tsx:97 | Extracting the digits of the digits changes nothing. |
| HelpPage.TelDigitsAppend | client/src/pages/help.tsx:97 | The digits of a joined string are the joined digits. |
| HelpPage.GroupedNumberDigits | client/src/pages/help.tsx:45-51 | A number written as three, three and four digits with one separator between the groups dials exactly its ten digits. |
| HelpPage.ClearentDigits | client/src/pages/help.tsx:45-51 | "866.435.0666 Option 1" dials "86643506661", so the option digit is dialled as part of the number. |
| HelpPage.TsysDigits | client/src/pages/help.tsx:45-51 | "877-608-6599" dials "8776086599". |
| Server.LogLine | server/index.ts:65-79 | A line is produced exactly for paths starting with "/api". It is at most 80 units long, and a formatted line of 80 or fewer units is logged unchanged. A longer one is logged as its first 79 units followed by "…". |
| Server.FormatLogLine | server/index.ts:68-71 | The line starts with the method, path, status, "in", and the duration with "ms", separated by single spaces. It ends with " :: " and the JSON body when a truthy body was captured, and with the duration and "ms" otherwise. |
| Server.LogHeadRoundTrip | server/index.ts:68 | Method, path and status read back from the formatted line when the method and path contain no space. |
| Server.Truncate | server/index.ts:73-75 | The result is at most 80 units. Lines of at most 80 units are unchanged. Longer lines become their first 79 units plus "…", exactly 80 units. |
| Server.TruncateIdempotent | server/index.ts:73-75 | Truncating a truncated line changes nothing. |
| Server.PrefixNotSegment | server/index.ts:67 | The test is a plain prefix test, so "/apiary" is logged too. |
| Server.ScanBackFinds | server/index.ts:31-37 | The backwards scan succeeds exactly when some "https://" is followed by line-terminator-free text up to the given position. |
| Server.ReplitMatchCorrect | server/index.ts:31-37 | The scan-based test accepts exactly what the pattern `https:\/\/.*SUFFIX$` accepts. |
| Server.OriginAllowedMeans | server/index.ts:28-38 | An origin is allowed iff it is present, non-empty, and either one of the two literal origins or accepted by one of the two patterns. |
| Server.UnanchoredStartAllowed | server/index.ts:31-32 | The patterns are not anchored at the start, so "xhttps://a.replit.dev" is allowed. |
| Server.OtherDomainRejected | server/index.ts:31-36 | "https://a.replit.com" is not allowed. |
| Server.CorsHeaders | server/index.ts:17-43 | The framing headers are always set. Four more headers are set exactly for an allowed origin. |
| Server.CorsEchoesOrigin | server/index.ts:39-40 | An allowed origin is echoed verbatim in Allow-Origin, with Allow-Credentials "true". Any other request gets neither header. |
| Server.ErrorResponse | server/index.ts:123-126 | The status is `err.status` if truthy, else `err.statusCode` if truthy, else 500. The message is `err.message` if truthy, else "Internal Server Error". Neither is ever falsy. |
| Server.ErrorResponseStable | server/index.ts:123-124 | Feeding a reply's status and message back in as an error gives the same reply. |
| Text.Trim | client/src/components/chat-interface.tsx:362-364 | The result is empty iff the input is all whitespace. Otherwise it neither starts nor ends with whitespace, and it is the input with the leading and trailing whitespace removed. |
| Text.TrimIdempotent | client/src/components/chat-interface.tsx:362-364 | Trimming twice is trimming once. |
| Numbers.JsRem | client/src/components/gamification-dashboard.tsx:185 | JavaScript's `%`: the result takes the sign of the dividend, is smaller in magnitude than the divisor, and satisfies a = b·q + r. |
| Numbers.ParseShowInt | client/src/components/gamification-dashboard.tsx:88 | Reading a rendered integer back gives the integer. |
| Seqs.FilterSelects | client/src/pages/unified-admin-panel.tsx:205-225 | `Array.prototype.filter` keeps an in-order subsequence holding every occurrence of every element that passes, and nothing else. |
| Seqs.SelectsIsFilter | client/src/pages/unified-admin-panel.tsx:205-225 | Only the filter's result has that property, so the characterisation is exact. |

## Left out

- React Query internals are not modelled: caching, `queryClient.clear()`, invalidation, the 2 s polling and the one-minute leaderboard refresh. The rendered message list is whatever payload the query holds. The invalidation key `/api/chats/{id}/messages` does not match the query key `/api/public/chats/{id}/messages`, so a send's refresh is modelled only as an effect. Nothing claims it reaches the view.
- `fetch` and `apiRequest` are not modelled. Their outcomes are event parameters. `apiRequest` is taken to reject on a non-ok response.
- SubmitWithoutChat: the message the fallback posts 200 ms after navigating is not modelled. It runs in a timer after the page has begun to unload.
- The mutation's `response.json()` result and the created chat's JSON are not modelled. Only the created id is used, as a parameter.
- The window event hooks, the PDF generator, message actions, saved prompts, the user query and all JSX styling are left out. None of them affects the state modelled here.
- Floating point is left out: `progressToNextLevel`, `toFixed`, `toLocaleString` and date formatting. The integer relations are kept.
- AdminPanel.PassRate: the page rounds the floating-point product `(passed / total) * 100`, while the model rounds the exact ratio. They differ when the exact value is a half that the product lands just below: 23 of 40 gives the product 57.49999999999999, which the page shows as 57 and the model as 58. Other such pairs are 29 of 200 and 57 of 200. IEEE-754 arithmetic is not modelled.
- Text.Lower: `toLowerCase` is modelled for ASCII letters only. Unicode case mapping is not modelled.
- Strings are sequences of Unicode scalar values. UTF-16 surrogate pairs, which JavaScript's `length` and `slice` count as two units, are not modelled.
- Server.Truncate: a cut that splits a surrogate pair is not represented, for the same reason.
- NaN and non-numeric `status` values are not modelled. Numbers are integers, and a status is either absent or an integer.
- Server.FormatLogLine: `JSON.stringify` is not modelled. The captured body arrives as its serialised text plus its truthiness.
- Server.ErrorResponse: the handler's `throw err` after replying is not modelled. It only reaches Express's own handler.
- Server bootstrap is left out (server/index.ts:84-157): startup helpers from other modules, route registration, Vite and static serving, `listen`, SIGTERM handling and `parseInt` of PORT.
- Gamification.LeaderboardCard: the source tests `leaderboard && leaderboard.length > 0` rather than `Array.isArray`. A non-array response is modelled as showing the invitation.
- The help page's other three support numbers are covered by the general lemmas only. They have no example lemmas.

=== FILE: admin.dfy ===
/** The admin console's list filters, its two id collections (tests running,
    prompts expanded) and its zero-guarded ratios. */
module AdminPanel {
  import opened Common
  import Seqs
  import Text
  import Numbers

  datatype Scenario = Scenario(id: string, title: string, category: string)

  datatype Document = Document(id: string, originalName: Option<string>, folderId: Option<string>)

  datatype Faq = Faq(id: int, question: string, answer: string)

  datatype ChatSummary = ChatSummary(chatId: string, totalMessages: int)

  /** The category selector value that shows every scenario. */
  const AllCategories := "all"

  function InCategory(selected: string): Scenario -> bool
  {
    (sc: Scenario) => sc.category == selected
  }

  /** Scenarios shown for the selected category: all of them for "all",
      otherwise exactly those of that category, in their original order. */
  function FilterScenarios(scenarios: seq<Scenario>, selected: string): (r: seq<Scenario>)
    ensures selected == AllCategories ==> r == scenarios
    ensures selected != AllCategories ==> Seqs.Selects(r, scenarios, InCategory(selected))
  {
    if selected == AllCategories then scenarios
    else
      Seqs.FilterSelects(scenarios, InCategory(selected));
      Seqs.Filter(scenarios, InCategory(selected))
  }

  /** `haystack.toLowerCase().includes(term.toLowerCase())`. */
  predicate MatchesTerm(haystack: string, term: string)
  {
    Text.Contains(Text.Lower(haystack), Text.Lower(term))
  }

  function KeepDocument(folder: Option<string>, term: string): Document -> bool
  {
    (doc: Document) =>
      && (folder.None? || doc.folderId == folder)
      && (term == "" || (doc.originalName.Some? && MatchesTerm(doc.originalName.value, term)))
  }

  /** Documents shown: a non-array response shows none; otherwise a document
      is kept iff it is in the selected folder (when one is selected) and its
      original name contains the search term case-insensitively (when the
      term is non-empty; a document without a name is then dropped). */
  function FilterDocuments(data: Payload<Document>, folder: Option<string>, term: string): (r: seq<Document>)
    ensures data.NotArray? ==> r == []
    ensures data.ArrayOf? ==> Seqs.IsSubsequence(r, data.items)
    ensures forall d :: d in r ==> folder.None? || d.folderId == folder
    ensures term != "" ==> forall d :: d in r ==>
              d.originalName.Some? && MatchesTerm(d.originalName.value, term)
    ensures data.ArrayOf? ==>
              forall d :: (d in data.items
                           && (folder.None? || d.folderId == folder)
                           && (term == "" || (d.originalName.Some? && MatchesTerm(d.originalName.value, term))))
                          ==> d in r
    ensures data.ArrayOf? ==> Seqs.Selects(r, data.items, KeepDocument(folder, term))
  {
    match data
    case NotArray => []
    case ArrayOf(docs) =>
      var keep := KeepDocument(folder, term);
      Seqs.FilterSelects(docs, keep);
      Seqs.FilterMembers(docs, keep);
      Seqs.Filter(docs, keep)
  }

  function KeepFaq(term: string): Faq -> bool
  {
    (faq: Faq) => term == "" || MatchesTerm(faq.question, term) || MatchesTerm(faq.answer, term)
  }

  /** FAQ entries shown: none for a non-array response; otherwise those whose
      question or answer contains the term case-insensitively, or all of them
      when the term is empty, in their original order. */
  function FilterFaqs(data: Payload<Faq>, term: string): (r: seq<Faq>)
    ensures data.NotArray? ==> r == []
    ensures data.ArrayOf? && term == "" ==> r == data.items
    ensures data.ArrayOf? ==> Seqs.Selects(r, data.items, KeepFaq(term))
    ensures forall f :: f in r ==> term == "" || MatchesTerm(f.question, term) || MatchesTerm(f.answer, term)
  {
    match data
    case NotArray => []
    case ArrayOf(faqs) =>
      Seqs.FilterSelects(faqs, KeepFaq(term));
      if term == "" then
        Seqs.FilterKeepsAll(faqs, KeepFaq(term));
        Seqs.Filter(faqs, KeepFaq(term))
      else
        Seqs.Filter(faqs, KeepFaq(term))
  }

  /** The running-tests set as a test is started: the id joins it. */
  function BeginRun(running: set<string>, id: string): (r: set<string>)
    ensures id in r
    ensures forall other :: other != id ==> (other in r <==> other in running)
  {
    running + {id}
  }

  /** The running-tests set as a test finishes, whether the run succeeded or
      threw: the id leaves it. */
  function EndRun(running: set<string>, id: string): (r: set<string>)
    ensures id !in r
    ensures forall other :: other != id ==> (other in r <==> other in running)
  {
    running - {id}
  }

  /** A run of a test that was not already running leaves the set as it
      found it, and other runs started or finished meanwhile are kept. */
  lemma RunTestRestores(running: set<string>, id: string, other: string)
    ensures id !in running ==> EndRun(BeginRun(running, id), id) == running
    ensures other != id ==> (other in EndRun(BeginRun(running, other), id))
  {
  }

  /** The expanded-prompts toggle: an id that is present is removed
      (every occurrence), an absent id is appended. */
  function ToggleExpanded(expanded: seq<string>, id: string): (r: seq<string>)
    ensures id in expanded ==> id !in r
    ensures id !in expanded ==> r == expanded + [id]
    ensures forall other :: other != id ==> (other in r <==> other in expanded)
  {
    if id in expanded then
      var keep := (x: string) => x != id;
      Seqs.FilterMembers(expanded, keep);
      Seqs.Filter(expanded, keep)
    else expanded + [id]
  }

  /** Toggling twice restores the id's membership, and restores the list
      exactly when the id was absent. */
  lemma {:induction false} ToggleTwice(expanded: seq<string>, id: string)
    ensures id in ToggleExpanded(ToggleExpanded(expanded, id), id) <==> id in expanded
    ensures id !in expanded ==> ToggleExpanded(ToggleExpanded(expanded, id), id) == expanded
  {
    if id !in expanded {
      var keep := (x: string) => x != id;
      Seqs.FilterAppend(expanded, [id], keep);
      Seqs.FilterKeepsAll(expanded, keep);
      assert Seqs.Filter([id], keep) == [];
    }
  }

  /** The pass rate shown: 0 without scenarios, otherwise the percentage of
      passed scenarios rounded to the nearest integer. */
  function PassRate(passed: int, total: int): (r: int)
    ensures total <= 0 ==> r == 0
    ensures total > 0 ==> 2 * total * r <= 200 * passed + total < 2 * total * r + 2 * total
    ensures total > 0 && 0 <= passed <= total ==> 0 <= r <= 100
  {
    if total > 0 then
      Numbers.RoundRatioWithin(100 * passed, total, 100);
      Numbers.RoundRatio(100 * passed, total)
    else 0
  }

  function MessageCount(c: ChatSummary): int
  {
    c.totalMessages
  }

  /** Average messages per monitored chat: 0 for no chats, otherwise the
      total rounded to the nearest integer after dividing by the count. */
  function AverageMessages(chats: seq<ChatSummary>): (r: int)
    ensures |chats| == 0 ==> r == 0
    ensures |chats| > 0 ==> var total := Seqs.Sum(chats, MessageCount);
              2 * |chats| * r <= 2 * total + |chats| < 2 * |chats| * r + 2 * |chats|
  {
    if |chats| > 0 then Numbers.RoundRatio(Seqs.Sum(chats, MessageCount), |chats|) else 0
  }
}

=== FILE: chat.dfy ===
/** The chat screen: compose buffer, send pipeline, voice input and the
    rendered message list, as one state record and one step function per
    event. Network calls, the speech recogniser and the microphone
    permission prompt are outside the model: their outcomes arrive as event
    parameters, and the requests the screen issues come out as effects. */
module ChatInterface {
  import opened Common
  import Text

  datatype Role = User | Assistant

  /** A message as the messages endpoint returns it. */
  datatype Message = Message(id: string, content: string, role: Role, createdAt: string)

  /** Body of `POST /api/chats/{id}/messages`. */
  datatype MessageBody = MessageBody(content: string, role: Role)

  /** Body of `POST /api/chats`. */
  datatype NewChat = NewChat(title: string, isActive: bool)

  datatype Request =
    | PostMessage(chatId: string, body: MessageBody)
    | CreateChat(chat: NewChat)
  {
    function Path(): string
    {
      match this
      case PostMessage(id, _) => "/api/chats/" + id + "/messages"
      case CreateChat(_) => "/api/chats"
    }
  }

  /** A toast: title and description. */
  datatype Notice = Notice(title: string, description: string)

  /** What a step asks of the outside world, in order. */
  datatype Effect =
    | Http(request: Request)
    | Delegate(text: string)       // awaits the page's new-chat-with-message handler
    | Toast(notice: Notice)
    | Navigate(chatId: string)     // window.location to /chat/{id}
    | RefreshMessages              // invalidate and refetch the message query
    | ChatsUpdated                 // invalidate the chat list and call onChatUpdate

  const NewChatRequest := CreateChat(NewChat("New Chat", true))

  const SendFailedNotice := Notice("Error", "Failed to send message. Please try again.")
  const StartFailedNotice := Notice("Error", "Failed to start conversation. Please try again.")
  const VoiceUnsupportedNotice :=
    Notice("Voice not supported", "Speech recognition is not available in your browser.")
  const MicrophoneNotice :=
    Notice("Microphone access required", "Please allow microphone access to use voice input.")

  const RecognitionTitle := "Voice recognition error"
  const DeniedText := "Microphone access denied. Please allow microphone permissions and try again."
  const NoSpeechText := "No speech detected. Please try speaking again."
  const NetworkText := "Network error. Please check your connection and try again."
  const GenericText := "Please try again or type your message."
  const AlreadyActiveText := "Voice recognition is already active. Please wait and try again."
  const StartFailedText := "Failed to start voice recognition. Please try again."

  /** The screen's own state. */
  datatype ChatState = ChatState(
    chatId: Option<string>,   // the route's chat id, null when none is selected
    input: string,            // compose buffer
    recording: bool,          // isRecording
    pending: bool,            // the send mutation is in flight
    recognizer: bool)         // a speech recogniser was constructed on mount

  datatype Step = Step(state: ChatState, effects: seq<Effect>)

  /** A chat id is usable when it is truthy: present and non-empty. */
  predicate HasChat(chatId: Option<string>)
  {
    TruthyString(chatId)
  }

  /** How a new chat gets made when no chat is selected: through the page's
      handler (which succeeds or rejects), or by the screen itself, which
      creates the chat (yielding its id, or failing) and may then post the
      first message (which succeeds or fails). */
  datatype NewChatIo =
    | ViaHandler(handlerOk: bool)
    | ViaFallback(createdId: Option<string>, postOk: bool)

  datatype SendError = NoActiveChat | FailedToSend

  datatype Result<T> = Ok(value: T) | Err(error: SendError)

  /** The request part of the send mutation: it throws "No active chat"
      without a usable chat id, and otherwise posts the content as a user
      message to that chat. */
  function SendRequest(chatId: Option<string>, content: string): (r: Result<Request>)
    ensures r.Err? <==> !HasChat(chatId)
    ensures r.Err? ==> r.error == NoActiveChat
    ensures r.Ok? ==> r.value.PostMessage? && r.value.chatId == chatId.value
                      && r.value.body == MessageBody(content, User)
                      && r.value.Path() == "/api/chats/" + chatId.value + "/messages"
  {
    if !HasChat(chatId) then Err(NoActiveChat)
    else Ok(PostMessage(chatId.value, MessageBody(content, User)))
  }

  /** The response part of the send mutation: a non-ok response is an error. */
  function SendResponse(responseOk: bool): (r: Option<SendError>)
    ensures r.None? <==> responseOk
    ensures r.Some? ==> r.value == FailedToSend
  {
    if responseOk then None else Some(FailedToSend)
  }

  /** A failed `mutateAsync` raises the toast twice: once from the mutation's
      own error handler and once from the submit handler's catch. */
  const SendFailureEffects := [Toast(SendFailedNotice), Toast(SendFailedNotice)]

  /** Submit with no chat selected: hand the text to the page's handler, or
      create a chat and navigate to it. The message the fallback schedules
      after navigating is not modelled. */
  function SubmitWithoutChat(text: string, io: NewChatIo): (r: seq<Effect>)
    ensures |r| >= 1
    ensures io.ViaHandler? ==> r[0] == Delegate(text)
                               && (Toast(SendFailedNotice) in r <==> !io.handlerOk)
                               && r == [Delegate(text)] + (if io.handlerOk then [] else [Toast(SendFailedNotice)])
    ensures io.ViaFallback? ==> r[0] == Http(NewChatRequest)
                                && (io.createdId.Some? ==> r == [Http(NewChatRequest), Navigate(io.createdId.value)])
                                && (io.createdId.None? ==> r == [Http(NewChatRequest), Toast(SendFailedNotice)])
  {
    match io
    case ViaHandler(ok) =>
      [Delegate(text)] + (if ok then [] else [Toast(SendFailedNotice)])
    case ViaFallback(created, _) =>
      [Http(NewChatRequest)] +
      (if created.Some? then [Navigate(created.value)] else [Toast(SendFailedNotice)])
  }

  /** The form's submit handler. It does nothing when the trimmed buffer is
      empty or a send is in flight. Otherwise it clears the buffer first and
      sends the trimmed text: through the send mutation when a chat is
      selected, through the new-chat path otherwise. */
  function Submit(s: ChatState, io: NewChatIo): (r: Step)
    ensures Text.Trim(s.input) == "" || s.pending ==> r == Step(s, [])
    ensures Text.Trim(s.input) != "" && !s.pending ==>
              && r.state == s.(input := "", pending := HasChat(s.chatId))
              && |r.effects| > 0
              && (HasChat(s.chatId) ==>
                    r.effects == [Http(PostMessage(s.chatId.value, MessageBody(Text.Trim(s.input), User)))])
              && (!HasChat(s.chatId) ==> r.effects == SubmitWithoutChat(Text.Trim(s.input), io))
  {
    var message := Text.Trim(s.input);
    if message == "" || s.pending then Step(s, [])
    else
      var cleared := s.(input := "");
      if HasChat(s.chatId) then
        match SendRequest(s.chatId, message)
        case Ok(request) => Step(cleared.(pending := true), [Http(request)])
        case Err(_) => Step(cleared, SendFailureEffects)
      else
        Step(cleared, SubmitWithoutChat(message, io))
  }

  /** The send mutation settles. Success refreshes the messages and the chat
      list; failure raises the error toast. Either way the send is no longer
      pending, and the buffer keeps whatever it holds now: the sent text is
      not put back. */
  function SendSettled(s: ChatState, responseOk: bool): (r: Step)
    ensures r.state == s.(pending := false)
    ensures SendResponse(responseOk).None? ==> r.effects == [RefreshMessages, ChatsUpdated]
    ensures SendResponse(responseOk).Some? ==> r.effects == SendFailureEffects
  {
    match SendResponse(responseOk)
    case None => Step(s.(pending := false), [RefreshMessages, ChatsUpdated])
    case Some(_) => Step(s.(pending := false), SendFailureEffects)
  }

  /** The recogniser's result handler: the transcript is appended to the
      buffer and recording stops. */
  function VoiceResult(s: ChatState, transcript: string): (r: ChatState)
    ensures r.input == s.input + transcript
    ensures r.input[..|s.input|] == s.input && r.input[|s.input|..] == transcript
    ensures !r.recording
    ensures r.(input := s.input, recording := s.recording) == s
  {
    s.(input := s.input + transcript, recording := false)
  }

  /** The description shown for a recognition error code: three known codes
      have their own text, every other code the generic one. */
  function RecognitionMessage(code: string): (m: string)
    ensures code == "not-allowed" <==> m == DeniedText
    ensures code == "no-speech" <==> m == NoSpeechText
    ensures code == "network" <==> m == NetworkText
    ensures code !in {"not-allowed", "no-speech", "network"} <==> m == GenericText
  {
    if code == "not-allowed" then DeniedText
    else if code == "no-speech" then NoSpeechText
    else if code == "network" then NetworkText
    else GenericText
  }

  /** The description identifies the error: two codes share a description
      only when neither is one of the three known codes. */
  lemma RecognitionMessageIdentifies(a: string, b: string)
    requires RecognitionMessage(a) == RecognitionMessage(b)
    ensures a == b || (a !in {"not-allowed", "no-speech", "network"} && b !in {"not-allowed", "no-speech", "network"})
  {
  }

  /** The recogniser's error handler: recording stops and a classified toast
      is raised; the buffer is untouched. */
  function VoiceError(s: ChatState, code: string): (r: Step)
    ensures r.state == s.(recording := false)
    ensures |r.effects| == 1 && r.effects[0].Toast?
    ensures r.effects[0].notice.title == RecognitionTitle
    ensures r.effects == [Toast(Notice(RecognitionTitle, RecognitionMessage(code)))]
  {
    Step(s.(recording := false), [Toast(Notice(RecognitionTitle, RecognitionMessage(code)))])
  }

  /** The microphone button's handler. `permission` is whether
      `getUserMedia` grants audio; `startFailure` is the message of the
      exception `recognition.start()` throws, if it throws. Both rendered
      buttons are disabled without a recogniser, so the unsupported toast
      is the handler's own guard and no click reaches it. */
  function ToggleMic(s: ChatState, permission: bool, startFailure: Option<string>): (r: Step)
    ensures !s.recognizer ==> r == Step(s, [Toast(VoiceUnsupportedNotice)])
    ensures s.recognizer && s.recording ==> r == Step(s.(recording := false), [])
    ensures s.recognizer && !s.recording && !permission ==> r == Step(s, [Toast(MicrophoneNotice)])
    ensures s.recognizer && !s.recording && permission && startFailure.None? ==>
              r == Step(s.(recording := true), [])
    ensures s.recognizer && !s.recording && permission && startFailure.Some? ==>
              && r.state == s
              && r.effects == [Toast(Notice(RecognitionTitle,
                   if Text.Contains(startFailure.value, "already started") then AlreadyActiveText
                   else StartFailedText))]
    ensures r.state.input == s.input && r.state.pending == s.pending
  {
    if !s.recognizer then Step(s, [Toast(VoiceUnsupportedNotice)])
    else if s.recording then Step(s.(recording := false), [])
    else if !permission then Step(s, [Toast(MicrophoneNotice)])
    else match startFailure
      case None => Step(s.(recording := true), [])
      case Some(message) =>
        var text := if Text.Contains(message, "already started") then AlreadyActiveText
                    else StartFailedText;
        Step(s.(recording := false), [Toast(Notice(RecognitionTitle, text))])
  }

  datatype Event =
    | Typed(text: string)
    | Submitted(io: NewChatIo)
    | Settled(responseOk: bool)
    | VoiceResulted(transcript: string)
    | VoiceFailed(code: string)
    | VoiceEnded
    | MicToggled(permission: bool, startFailure: Option<string>)

  /** One event applied to the screen. The chat id and the recogniser's
      presence are fixed for the life of the screen. */
  function Next(s: ChatState, e: Event): (r: Step)
    ensures r.state.chatId == s.chatId && r.state.recognizer == s.recognizer
    ensures e.Typed? ==> r == Step(s.(input := e.text), [])
    ensures e.VoiceEnded? ==> r == Step(s.(recording := false), [])
  {
    match e
    case Typed(text) => Step(s.(input := text), [])
    case Submitted(io) => Submit(s, io)
    case Settled(ok) => SendSettled(s, ok)
    case VoiceResulted(t) => Step(VoiceResult(s, t), [])
    case VoiceFailed(code) => VoiceError(s, code)
    case VoiceEnded => Step(s.(recording := false), [])
    case MicToggled(permission, failure) => ToggleMic(s, permission, failure)
  }

  /** The recogniser's end handler only stops recording: the buffer, the
      pending send and the selected chat are untouched, and nothing is
      requested or shown. */
  lemma VoiceEndedStopsRecording(s: ChatState)
    ensures !Next(s, VoiceEnded).state.recording
    ensures Next(s, VoiceEnded).state.(recording := s.recording) == s
    ensures Next(s, VoiceEnded).effects == []
  {
  }

  /** Typing replaces the buffer with the textarea's value and touches
      nothing else. */
  lemma TypedSetsInput(s: ChatState, text: string)
    ensures Next(s, Typed(text)).state.input == text
    ensures Next(s, Typed(text)).state.(input := s.input) == s
    ensures Next(s, Typed(text)).effects == []
  {
  }

  /** Recording starts only from the microphone button, with a recogniser,
      granted permission and a start that does not throw. */
  lemma RecordingOnlyFromMic(s: ChatState, e: Event)
    requires !s.recording && Next(s, e).state.recording
    ensures e.MicToggled? && e.permission && e.startFailure.None? && s.recognizer
  {
  }

  /** A send becomes pending only by submitting non-blank text while a chat
      is selected. */
  lemma PendingOnlyFromSubmit(s: ChatState, e: Event)
    requires !s.pending && Next(s, e).state.pending
    ensures e.Submitted? && HasChat(s.chatId) && Text.Trim(s.input) != ""
  {
  }

  /** While a send is pending, nothing typed or submitted issues a second
      request: the next submit is ignored whatever the buffer holds. */
  lemma NoSecondSendWhilePending(s: ChatState, text: string, io: NewChatIo)
    requires s.pending
    ensures Next(Next(s, Typed(text)).state, Submitted(io)).effects == []
  {
  }

  /** Submitting and then failing leaves the buffer empty: the sent text is
      gone, the send is no longer pending, and only error toasts follow. */
  lemma FailedSendClearsInput(s: ChatState, io: NewChatIo)
    requires HasChat(s.chatId) && !s.pending && Text.Trim(s.input) != ""
    ensures var sent := Submit(s, io);
            var failed := SendSettled(sent.state, false);
            && sent.effects == [Http(PostMessage(s.chatId.value, MessageBody(Text.Trim(s.input), User)))]
            && failed.state.input == ""
            && !failed.state.pending
            && forall k :: 0 <= k < |failed.effects| ==> failed.effects[k] == Toast(SendFailedNotice)
  {
  }

  /** The voice example: "rate is " followed by the transcript
      "twenty six percent". */
  lemma VoiceAppendExample(s: ChatState)
    requires s.input == "rate is " && s.recording
    ensures Next(s, VoiceResulted("twenty six percent")).state.input == "rate is twenty six percent"
    ensures !Next(s, VoiceResulted("twenty six percent")).state.recording
  {
  }

  /** Denied microphone permission leaves the state as it was and raises the
      permission toast. */
  lemma PermissionDeniedKeepsState(s: ChatState)
    requires s.recognizer && !s.recording
    ensures Next(s, MicToggled(false, None)).state == s
    ensures Next(s, MicToggled(false, None)).effects == [Toast(MicrophoneNotice)]
  {
  }

  /** What the welcome dashboard's new-chat-with-message callback does.
      With the page's handler, the text is delegated and the handler is
      awaited outside any catch, so a rejection raises no toast here.
      Without one, the conversation-starter routine runs its fallback: a
      "New Chat" is created, the text is posted verbatim to it, and the
      view navigates there; each failure there ends in the start-failed
      toast and no navigation. The routine's own handler branch is never
      taken, since its one caller invokes it only without a handler. */
  function StartConversation(text: string, io: NewChatIo): (r: seq<Effect>)
    ensures io.ViaHandler? <==> r == [Delegate(text)]
    ensures io.ViaFallback? ==> |r| >= 2 && r[0] == Http(NewChatRequest)
    ensures io.ViaFallback? ==>
              (r[|r| - 1] == Toast(StartFailedNotice) <==> io.createdId.None? || !io.postOk)
  {
    match io
    case ViaHandler(_) => [Delegate(text)]
    case ViaFallback(None, _) =>
      [Http(NewChatRequest), Toast(StartFailedNotice)]
    case ViaFallback(Some(id), postOk) =>
      [Http(NewChatRequest), Http(PostMessage(id, MessageBody(text, User)))] +
      (if postOk then [Navigate(id)] else [Toast(StartFailedNotice)])
  }

  /** The starter fallback in terms of outcomes: it creates an active
      "New Chat" first and posts exactly the text as a user message to the
      created id; the view navigates exactly when creation and post both
      succeed, and to that id; otherwise the last effect is the failure
      toast. */
  lemma StartConversationContract(text: string, created: Option<string>, postOk: bool)
    ensures var r := StartConversation(text, ViaFallback(created, postOk));
            && |r| >= 2
            && r[0] == Http(CreateChat(NewChat("New Chat", true)))
            && (created.Some? ==> r[1] == Http(PostMessage(created.value, MessageBody(text, User))))
            && (forall x :: Navigate(x) in r <==> created == Some(x) && postOk)
            && (r[|r| - 1] == Toast(StartFailedNotice) <==> created.None? || !postOk)
            && |r| == (if created.Some? then 3 else 2)
            && (created.None? ==> r == [Http(NewChatRequest), Toast(StartFailedNotice)])
            && Delegate(text) !in r
  {
  }

  /** With the page's handler the callback only delegates, whether the
      handler resolves or rejects: no request, no toast, no navigation. */
  lemma StartConversationDelegates(text: string, handlerOk: bool)
    ensures StartConversation(text, ViaHandler(handlerOk)) == [Delegate(text)]
    ensures Toast(StartFailedNotice) !in StartConversation(text, ViaHandler(handlerOk))
  {
  }

  /** What the message pane shows. */
  datatype Body =
    | Welcome                       // no chat selected: the welcome dashboard
    | Spinner                       // loading and nothing to show yet
    | NoMessages                    // "No messages yet. Start the conversation!"
    | Rows(messages: seq<Message>)  // the messages, in the order received

  /** The pane plus whether the "assistant is typing" row is appended. */
  datatype View = View(body: Body, typingRow: bool)

  /** The render-state selection for the message query's data, which is
      normalised to an empty list when it is not an array. */
  function Render(chatId: Option<string>, data: Payload<Message>, loading: bool, pending: bool): (v: View)
    ensures !HasChat(chatId) <==> v.body == Welcome
    ensures v.body == Spinner <==> HasChat(chatId) && loading && |ItemsOrEmpty(data)| == 0
    ensures v.body == NoMessages <==> HasChat(chatId) && !loading && |ItemsOrEmpty(data)| == 0
    ensures v.body.Rows? ==> data.ArrayOf? && v.body.messages == data.items && |data.items| > 0
    ensures HasChat(chatId) && data.ArrayOf? && |data.items| > 0 ==> v.body == Rows(data.items)
    ensures v.typingRow <==> HasChat(chatId) && pending
  {
    if !HasChat(chatId) then View(Welcome, false)
    else
      var messages := ItemsOrEmpty(data);
      var body :=
        if loading && |messages| == 0 then Spinner
        else if |messages| == 0 then NoMessages
        else Rows(messages);
      View(body, pending)
  }

  /** The typing row follows the send pipeline: it appears once non-blank
      text is submitted in a selected chat, and it is gone once that send
      settles, whatever the outcome. */
  lemma TypingRowTracksSend(s: ChatState, io: NewChatIo, data: Payload<Message>, loading: bool, responseOk: bool)
    requires HasChat(s.chatId) && !s.pending && Text.Trim(s.input) != ""
    ensures var sent := Submit(s, io).state;
            Render(sent.chatId, data, loading, sent.pending).typingRow
    ensures var settled := SendSettled(Submit(s, io).state, responseOk).state;
            !Render(settled.chatId, data, loading, settled.pending).typingRow
  {
  }
}

=== FILE: common.dfy ===
/** Shapes shared by every component: optional values, response bodies that may
    or may not be arrays, and JavaScript truthiness of the few value kinds the
    source tests with `&&`, `||` and `!`. */
module Common {

  /** `undefined`/`null` versus a present value. */
  datatype Option<+T> = None | Some(value: T)

  /** A response body as a component receives it: either a JSON array or
      anything else (`undefined`, `null`, an object, a string, a number). */
  datatype Payload<T> = ArrayOf(items: seq<T>) | NotArray

  /** `Array.isArray(data) ? data : []`: the defensive normalisation the
      components apply before reading a list. */
  function ItemsOrEmpty<T>(p: Payload<T>): (r: seq<T>)
    ensures p.NotArray? ==> r == []
    ensures p.ArrayOf? ==> r == p.items
  {
    match p
    case ArrayOf(items) => items
    case NotArray => []
  }

  /** A string-or-absent value is truthy exactly when present and non-empty. */
  predicate TruthyString(s: Option<string>)
  {
    s.Some? && s.value != ""
  }

  /** A number-or-absent value is truthy exactly when present and non-zero
      (NaN is not modelled). */
  predicate TruthyNumber(n: Option<int>)
  {
    n.Some? && n.value != 0
  }

  /** `a || b` on optional strings: the first truthy operand, else the fallback. */
  function OrString(s: Option<string>, fallback: string): (r: string)
    ensures TruthyString(s) ==> r == s.value
    ensures !TruthyString(s) ==> r == fallback
  {
    if TruthyString(s) then s.value else fallback
  }
}

=== FILE: gamification.dfy ===
/** The gamification dashboard: level arithmetic, leaderboard entries and
    which panel is shown. */
module Gamification {
  import opened Common
  import Seqs
  import Numbers

  datatype UserStats = UserStats(
    id: string,
    username: string,
    firstName: Option<string>,
    lastName: Option<string>,
    totalPoints: int,
    level: int)

  /** Points per level. */
  const LevelSize := 100

  /** How many leaderboard entries the dashboard lists. */
  const LeaderboardLimit := 10

  /** `100 - totalPoints % 100` with JavaScript's truncating `%`: the distance
      to the next multiple of 100. For non-negative points that is the next
      multiple strictly above, so the result lies in 1..100 and complements
      the points already earned in the level; negative points (which the
      formula does not guard against) give 100..199. */
  function PointsToNextLevel(totalPoints: int): (r: int)
    ensures (totalPoints + r) % LevelSize == 0
    ensures totalPoints >= 0 ==> 1 <= r <= LevelSize
    ensures totalPoints >= 0 ==> Numbers.JsRem(totalPoints, LevelSize) + r == LevelSize
    ensures totalPoints < 0 ==> LevelSize <= r < 2 * LevelSize
  {
    LevelSize - Numbers.JsRem(totalPoints, LevelSize)
  }

  /** The name an entry shows: "first last" when both names are truthy,
      otherwise the username. */
  function DisplayName(u: UserStats): (name: string)
    ensures TruthyString(u.firstName) && TruthyString(u.lastName) ==>
              name == u.firstName.value + " " + u.lastName.value
              && name[..|u.firstName.value|] == u.firstName.value
              && name[|u.firstName.value|] == ' '
    ensures !(TruthyString(u.firstName) && TruthyString(u.lastName)) ==> name == u.username
  {
    if TruthyString(u.firstName) && TruthyString(u.lastName) then
      u.firstName.value + " " + u.lastName.value
    else u.username
  }

  /** The rank marker for a leaderboard position. */
  datatype Badge = Trophy | Award | Star | Numbered(caption: string)

  /** Positions 1, 2 and 3 get a trophy, an award and a star; any other
      position is labelled "#" followed by the number. */
  function RankBadge(rank: int): (b: Badge)
    ensures rank == 1 <==> b == Trophy
    ensures rank == 2 <==> b == Award
    ensures rank == 3 <==> b == Star
    ensures b.Numbered? <==> rank != 1 && rank != 2 && rank != 3
    ensures b.Numbered? ==> |b.caption| >= 2 && b.caption[0] == '#'
  {
    if rank == 1 then Trophy
    else if rank == 2 then Award
    else if rank == 3 then Star
    else Numbered("#" + Numbers.ShowInt(rank))
  }

  /** The number in a "#" label reads back as the rank it was made from, so
      two positions never share a label. */
  lemma BadgeLabelNamesRank(rank: int)
    requires RankBadge(rank).Numbered?
    ensures var text := RankBadge(rank).caption[1..];
            text == Numbers.ShowInt(rank) && Numbers.ParseInt(text) == rank
  {
    assert RankBadge(rank).caption[1..] == Numbers.ShowInt(rank);
    Numbers.ParseShowInt(rank);
  }

  lemma BadgesDistinct(a: int, b: int)
    requires a != b
    ensures RankBadge(a) != RankBadge(b)
  {
    if RankBadge(a).Numbered? && RankBadge(b).Numbered? {
      BadgeLabelNamesRank(a);
      BadgeLabelNamesRank(b);
    }
  }

  /** One leaderboard row. */
  datatype Entry = Entry(user: UserStats, position: int, name: string, isCurrentUser: bool, badge: Badge)

  function MakeEntry(u: UserStats, currentUserId: string, position: int): Entry
  {
    Entry(u, position, DisplayName(u), u.id == currentUserId, RankBadge(position))
  }

  /** The rows listed: the first ten users at most, numbered 1..n in list
      order, each marked as the viewer exactly when its id is the viewer's. */
  function LeaderboardEntries(board: seq<UserStats>, currentUserId: string): (r: seq<Entry>)
    ensures |r| == if |board| < LeaderboardLimit then |board| else LeaderboardLimit
    ensures forall i :: 0 <= i < |r| ==>
              && r[i].user == board[i]
              && r[i].position == i + 1
              && r[i].badge == RankBadge(i + 1)
              && r[i].name == DisplayName(board[i])
              && (r[i].isCurrentUser <==> board[i].id == currentUserId)
  {
    var shown := Seqs.Take(board, LeaderboardLimit);
    seq(|shown|, i requires 0 <= i < |shown| => MakeEntry(shown[i], currentUserId, i + 1))
  }

  /** The leaderboard card: skeleton while loading, the entries when the
      response is a non-empty array, the invitation to be first otherwise. */
  datatype BoardView = BoardLoading | Entries(entries: seq<Entry>) | BeFirst

  function LeaderboardCard(loading: bool, data: Payload<UserStats>, currentUserId: string): (v: BoardView)
    ensures loading <==> v == BoardLoading
    ensures v.Entries? <==> !loading && data.ArrayOf? && |data.items| > 0
    ensures v.Entries? ==> 1 <= |v.entries| <= LeaderboardLimit
    ensures v.Entries? ==> v.entries == LeaderboardEntries(data.items, currentUserId)
    ensures v.Entries? ==> forall i :: 0 <= i < |v.entries| ==>
              v.entries[i].user == data.items[i] && v.entries[i].position == i + 1
  {
    if loading then BoardLoading
    else if data.ArrayOf? && |data.items| > 0 then Entries(LeaderboardEntries(data.items, currentUserId))
    else BeFirst
  }
}

=== FILE: help.dfy ===
/** The help page's support numbers and the `tel:` links built from them by
    deleting every non-digit (`number.replace(/[^0-9]/g, '')`). */
module HelpPage {
  import Seqs
  import Text

  /** The digits of a phone number, in their original order
      (`number.replace(/[^0-9]/g, '')`). */
  function TelDigits(number: string): string
  {
    if |number| == 0 then ""
    else (if Text.IsAsciiDigit(number[0]) then [number[0]] else []) + TelDigits(number[1..])
  }

  /** The link target for a support number. */
  function TelHref(number: string): (href: string)
    ensures |href| == 4 + |TelDigits(number)|
    ensures href[..4] == "tel:" && href[4..] == TelDigits(number)
  {
    "tel:" + TelDigits(number)
  }

  /** Digit extraction is the filter keeping `[0-9]`. */
  lemma {:induction false} TelDigitsIsFilter(number: string)
    ensures TelDigits(number) == Seqs.Filter(number, Text.IsAsciiDigit)
    decreases |number|
  {
    if |number| > 0 {
      TelDigitsIsFilter(number[1..]);
    }
  }

  /** The target holds exactly the digits of the number: every occurrence of
      every digit, in order, and nothing else. */
  lemma TelDigitsSelects(number: string)
    ensures Seqs.Selects(TelDigits(number), number, Text.IsAsciiDigit)
  {
    TelDigitsIsFilter(number);
    Seqs.FilterSelects(number, Text.IsAsciiDigit);
  }

  /** The target is no longer than the number and holds digits only. */
  lemma TelDigitsAreDigits(number: string)
    ensures |TelDigits(number)| <= |number|
    ensures forall i :: 0 <= i < |TelDigits(number)| ==> Text.IsAsciiDigit(TelDigits(number)[i])
  {
    TelDigitsIsFilter(number);
  }

  /** Extracting the digits of extracted digits changes nothing. */
  lemma TelDigitsIdempotent(number: string)
    ensures TelDigits(TelDigits(number)) == TelDigits(number)
  {
    TelDigitsIsFilter(number);
    TelDigitsIsFilter(TelDigits(number));
    Seqs.FilterIdempotent(number, Text.IsAsciiDigit);
  }

  /** A number made only of digits is kept whole. */
  lemma {:induction false} TelDigitsKeepsDigits(number: string)
    requires forall i :: 0 <= i < |number| ==> Text.IsAsciiDigit(number[i])
    ensures TelDigits(number) == number
    decreases |number|
  {
    if |number| > 0 {
      TelDigitsKeepsDigits(number[1..]);
    }
  }

  /** A number without digits yields an empty target. */
  lemma {:induction false} TelDigitsDropsRest(number: string)
    requires forall i :: 0 <= i < |number| ==> !Text.IsAsciiDigit(number[i])
    ensures TelDigits(number) == ""
    decreases |number|
  {
    if |number| > 0 {
      TelDigitsDropsRest(number[1..]);
    }
  }

  /** The target of a number split into pieces is the pieces' targets joined. */
  lemma {:induction false} TelDigitsAppend(a: string, b: string)
    ensures TelDigits(a + b) == TelDigits(a) + TelDigits(b)
    decreases |a|
  {
    if |a| == 0 {
      assert a + b == b;
    } else {
      var head := if Text.IsAsciiDigit(a[0]) then [a[0]] else [];
      assert (a + b)[0] == a[0];
      assert (a + b)[1..] == a[1..] + b;
      TelDigitsAppend(a[1..], b);
      assert TelDigits(a + b) == head + (TelDigits(a[1..]) + TelDigits(b));
      assert head + (TelDigits(a[1..]) + TelDigits(b)) == (head + TelDigits(a[1..])) + TelDigits(b);
    }
  }

  /** The target of a stretch of a number is the targets of its two parts
      joined. */
  lemma TelDigitsSplit(s: string, i: nat, j: nat, k: nat)
    requires i <= j <= k <= |s|
    ensures TelDigits(s[i..k]) == TelDigits(s[i..j]) + TelDigits(s[j..k])
  {
    assert s[i..k] == s[i..j] + s[j..k];
    TelDigitsAppend(s[i..j], s[j..k]);
  }

  /** A number written in groups of three, three and four digits with one
      separator between groups dials the ten digits, separators dropped. */
  lemma GroupedNumberDigits(a: string)
    requires |a| == 12
    requires !Text.IsAsciiDigit(a[3]) && !Text.IsAsciiDigit(a[7])
    requires forall i :: 0 <= i < 12 && i != 3 && i != 7 ==> Text.IsAsciiDigit(a[i])
    ensures TelDigits(a) == a[0..3] + a[4..7] + a[8..12]
    ensures TelDigits(a) == [a[0], a[1], a[2], a[4], a[5], a[6], a[8], a[9], a[10], a[11]]
  {
    TelDigitsKeepsDigits(a[0..3]);
    TelDigitsDropsRest(a[3..4]);
    TelDigitsKeepsDigits(a[4..7]);
    TelDigitsDropsRest(a[7..8]);
    TelDigitsKeepsDigits(a[8..12]);
    TelDigitsSplit(a, 0, 3, 4);
    assert TelDigits(a[0..4]) == a[0..3];
    TelDigitsSplit(a, 0, 4, 7);
    assert TelDigits(a[0..7]) == a[0..3] + a[4..7];
    TelDigitsSplit(a, 0, 7, 8);
    assert TelDigits(a[0..8]) == a[0..3] + a[4..7];
    TelDigitsSplit(a, 0, 8, 12);
    assert a[0..12] == a;
    var d := a[0..3] + a[4..7] + a[8..12];
    assert |d| == 10;
    assert d[0] == a[0] && d[1] == a[1] && d[2] == a[2];
    assert d[3] == a[4] && d[4] == a[5] && d[5] == a[6];
    assert d[6] == a[8] && d[7] == a[9] && d[8] == a[10] && d[9] == a[11];
  }

  /** A stretch of non-digits ending in one digit keeps only that digit. */
  lemma TrailingDigit(b: string)
    requires |b| > 0 && Text.IsAsciiDigit(b[|b| - 1])
    requires forall i :: 0 <= i < |b| - 1 ==> !Text.IsAsciiDigit(b[i])
    ensures TelDigits(b) == [b[|b| - 1]]
  {
    var n := |b| - 1;
    TelDigitsDropsRest(b[0..n]);
    TelDigitsKeepsDigits(b[n..]);
    TelDigitsSplit(b, 0, n, |b|);
    assert b[0..|b|] == b;
    assert b[n..] == [b[n]];
  }

  /** Clearent's listed number dials its eleven digits, the option digit
      included, so the link dials the menu choice as part of the number. */
  lemma ClearentDigits(number: string)
    requires number == "866.435.0666 Option 1"
    ensures TelDigits(number) == "86643506661"
  {
    var main := number[0..12];
    var option := number[12..21];
    assert |number| == 21;
    GroupedNumberDigits(main);
    TrailingDigit(option);
    TelDigitsSplit(number, 0, 12, 21);
    assert number[0..21] == number;
    assert TelDigits(number) ==
      [number[0], number[1], number[2], number[4], number[5], number[6],
       number[8], number[9], number[10], number[11], number[20]];
  }

  /** TSYS's listed number dials its ten digits without the dashes. */
  lemma TsysDigits(number: string)
    requires number == "877-608-6599"
    ensures TelDigits(number) == "8776086599"
  {
    GroupedNumberDigits(number);
  }
}

=== FILE: leaderboard.dfy ===
/** The agent leaderboard widget: response normalisation, how many agents
    are listed, the "+N more" footer, the summary totals and the medal tier
    of each row. */
module LeaderboardWidget {
  import opened Common
  import Seqs

  datatype Agent = Agent(
    rank: int,
    username: string,
    totalChats: int,
    totalMessages: int,
    userQueries: int,
    aiResponses: int,
    activityScore: int)

  /** The leaderboard response as received: missing (a falsy value), a
      truthy non-object, or an object whose `leaderboard` field is absent or
      holds some payload. */
  datatype Response = Missing | Scalar | Object(leaderboard: Option<Payload<Agent>>)

  /** The widget's two props, each possibly omitted. */
  datatype Props = Props(showFull: Option<bool>, maxEntries: Option<int>)

  const DefaultMaxEntries := 5

  function FullMode(p: Props): bool
  {
    p.showFull.Some? && p.showFull.value
  }

  function MaxEntries(p: Props): int
  {
    if p.maxEntries.Some? then p.maxEntries.value else DefaultMaxEntries
  }

  /** The agents listed: the `leaderboard` array of an object response, and
      none for any other response. */
  function Agents(resp: Response): (r: seq<Agent>)
    ensures resp.Object? && resp.leaderboard.Some? && resp.leaderboard.value.ArrayOf? ==>
              r == resp.leaderboard.value.items
    ensures !(resp.Object? && resp.leaderboard.Some? && resp.leaderboard.value.ArrayOf?) ==> r == []
  {
    match resp
    case Object(Some(ArrayOf(items))) => items
    case _ => []
  }

  /** The agents shown as rows: all of them in full mode, otherwise
      `agents.slice(0, maxEntries)`. */
  function DisplayAgents(agents: seq<Agent>, full: bool, maxEntries: int): (r: seq<Agent>)
    ensures full ==> r == agents
    ensures !full ==> |r| == Seqs.SliceEnd(|agents|, maxEntries)
    ensures !full && maxEntries >= 0 ==> |r| == if maxEntries < |agents| then maxEntries else |agents|
    ensures |r| <= |agents| && r == agents[..|r|]
  {
    if full then agents else Seqs.Take(agents, maxEntries)
  }

  /** The "+N more agents" footer: shown exactly outside full mode when more
      agents exist than the limit, with N the number beyond the limit. */
  function MoreFooter(agents: seq<Agent>, full: bool, maxEntries: int): (n: Option<int>)
    ensures n.Some? <==> !full && |agents| > maxEntries
    ensures n.Some? ==> n.value == |agents| - maxEntries && n.value >= 1
    ensures n.Some? && maxEntries >= 0 ==>
              |DisplayAgents(agents, full, maxEntries)| + n.value == |agents|
  {
    if !full && |agents| > maxEntries then Some(|agents| - maxEntries) else None
  }

  /** Without a footer, every agent is listed (for a non-negative limit). */
  lemma NoFooterShowsAll(agents: seq<Agent>, full: bool, maxEntries: int)
    requires maxEntries >= 0 && MoreFooter(agents, full, maxEntries).None?
    ensures DisplayAgents(agents, full, maxEntries) == agents
  {
  }

  datatype Totals = Totals(chats: int, queries: int, responses: int)

  function Chats(a: Agent): int { a.totalChats }
  function Queries(a: Agent): int { a.userQueries }
  function Responses(a: Agent): int { a.aiResponses }

  function TotalsOf(agents: seq<Agent>): Totals
  {
    Totals(Seqs.Sum(agents, Chats), Seqs.Sum(agents, Queries), Seqs.Sum(agents, Responses))
  }

  /** The summary block: only in full mode, totalled over every agent. */
  function Summary(agents: seq<Agent>, full: bool): (t: Option<Totals>)
    ensures t.Some? <==> full
    ensures t.Some? ==> t.value == TotalsOf(agents)
  {
    if full then Some(TotalsOf(agents)) else None
  }

  /** The totals cover every agent, not only the listed rows: they are the
      listed rows' totals plus those of the agents past the limit. */
  lemma TotalsCoverUnlisted(agents: seq<Agent>, maxEntries: int)
    ensures var shown := DisplayAgents(agents, false, maxEntries);
            var rest := agents[|shown|..];
            TotalsOf(agents).chats == TotalsOf(shown).chats + TotalsOf(rest).chats
            && TotalsOf(agents).queries == TotalsOf(shown).queries + TotalsOf(rest).queries
            && TotalsOf(agents).responses == TotalsOf(shown).responses + TotalsOf(rest).responses
  {
    var shown := DisplayAgents(agents, false, maxEntries);
    var rest := agents[|shown|..];
    assert agents == shown + rest;
    Seqs.SumAppend(shown, rest, Chats);
    Seqs.SumAppend(shown, rest, Queries);
    Seqs.SumAppend(shown, rest, Responses);
  }

  /** Row highlight, decided by the row's index alone. */
  datatype Tier = Gold | Silver | Bronze | Plain

  function TierOf(index: int): (t: Tier)
    ensures t == Gold <==> index == 0
    ensures t == Silver <==> index == 1
    ensures t == Bronze <==> index == 2
    ensures t == Plain <==> index != 0 && index != 1 && index != 2
  {
    if index == 0 then Gold
    else if index == 1 then Silver
    else if index == 2 then Bronze
    else Plain
  }

  datatype Row = Row(agent: Agent, tier: Tier)

  /** What the widget renders. */
  datatype View =
    | NoActivity
    | Board(topCaption: Option<int>, totals: Option<Totals>, rows: seq<Row>, more: Option<int>)

  function Widget(resp: Response, props: Props): (v: View)
    ensures v == NoActivity <==> Agents(resp) == []
    ensures v.Board? ==>
              var shown := DisplayAgents(Agents(resp), FullMode(props), MaxEntries(props));
              && |v.rows| == |shown|
              && (forall i :: 0 <= i < |v.rows| ==> v.rows[i] == Row(shown[i], TierOf(i)))
              && v.totals == Summary(Agents(resp), FullMode(props))
              && v.more == MoreFooter(Agents(resp), FullMode(props), MaxEntries(props))
              && (v.topCaption.Some? <==> !FullMode(props))
              && v.topCaption == (if FullMode(props) then None else Some(MaxEntries(props)))
  {
    var agents := Agents(resp);
    if |agents| == 0 then NoActivity
    else
      var full := FullMode(props);
      var limit := MaxEntries(props);
      var shown := DisplayAgents(agents, full, limit);
      Board(
        if full then None else Some(limit),
        Summary(agents, full),
        seq(|shown|, i requires 0 <= i < |shown| => Row(shown[i], TierOf(i))),
        MoreFooter(agents, full, limit))
  }

  /** With the default props the widget lists at most five agents, and the
      footer accounts for all the others. */
  lemma DefaultPropsListFive(resp: Response)
    requires |Agents(resp)| > 0
    ensures var v := Widget(resp, Props(None, None));
            && |v.rows| <= DefaultMaxEntries
            && |v.rows| + (if v.more.Some? then v.more.value else 0) == |Agents(resp)|
  {
  }
}

=== FILE: numbers.dfy ===
/** JavaScript number operations the components use on integral values: the
    truncating remainder `%`, `Math.round` of a ratio, and the decimal text a
    template literal gives an integer. */
module Numbers {
  import Text

  /** `a % b` for a positive divisor: the remainder truncates toward zero, so
      it takes the sign of `a` (unlike Dafny's Euclidean `%`). */
  function JsRem(a: int, b: int): (r: int)
    requires b > 0
    ensures a >= 0 ==> 0 <= r < b
    ensures a < 0 ==> -b < r <= 0
    ensures a == b * JsQuot(a, b) + r
  {
    if a >= 0 then a % b else -((-a) % b)
  }

  /** `Math.trunc(a / b)` for a positive divisor. */
  function JsQuot(a: int, b: int): int
    requires b > 0
  {
    if a >= 0 then a / b else -((-a) / b)
  }

  /** `Math.round(n / d)` computed exactly: the integer nearest to `n / d`,
      halves rounded up. */
  function RoundRatio(n: int, d: int): (r: int)
    requires d > 0
    ensures 2 * d * r <= 2 * n + d < 2 * d * r + 2 * d
  {
    (2 * n + d) / (2 * d)
  }

  /** A ratio of a non-negative amount to a positive whole, scaled so the
      whole is `k`, rounds into `0..k`. */
  lemma RoundRatioWithin(n: int, d: int, k: int)
    requires d > 0 && k >= 0
    ensures 0 <= n <= k * d ==> 0 <= RoundRatio(n, d) <= k
  {
    var r := RoundRatio(n, d);
    if 0 <= n <= k * d {
      CancelLess(2 * d, 0, r + 1);
      assert 2 * d * (r + 1) == 2 * d * r + 2 * d;
      assert 2 * d * (k + 1) == 2 * (k * d) + 2 * d;
      CancelLess(2 * d, r, k + 1);
    }
  }

  /** A positive factor can be cancelled from both sides of `<`. */
  lemma CancelLess(c: int, a: int, b: int)
    requires c > 0
    ensures c * a < c * b ==> a < b
  {
    if b <= a {
      assert c * a - c * b == c * (a - b);
    }
  }

  function DigitChar(d: int): (c: char)
    requires 0 <= d < 10
    ensures Text.IsAsciiDigit(c)
  {
    (48 + d) as char
  }

  function DigitValue(c: char): (d: int)
    requires Text.IsAsciiDigit(c)
    ensures 0 <= d < 10
  {
    c as int - 48
  }

  predicate AllDigits(s: string)
  {
    forall i :: 0 <= i < |s| ==> Text.IsAsciiDigit(s[i])
  }

  /** Decimal text of a natural number, as `${n}` renders it. */
  function ShowNat(n: nat): (r: string)
    ensures |r| > 0
    ensures AllDigits(r)
    ensures r[0] == '0' ==> n == 0
    decreases n
  {
    if n < 10 then [DigitChar(n)] else ShowNat(n / 10) + [DigitChar(n % 10)]
  }

  /** Decimal text of an integer, with a leading `-` when negative. */
  function ShowInt(i: int): (r: string)
    ensures |r| > 0
    ensures i < 0 <==> r[0] == '-'
    ensures i >= 0 ==> AllDigits(r)
    ensures i < 0 ==> |r| > 1 && AllDigits(r[1..])
  {
    if i < 0 then "-" + ShowNat(-i) else ShowNat(i)
  }

  /** Value of a string of decimal digits. */
  function ParseNat(s: string): nat
    requires AllDigits(s)
    decreases |s|
  {
    if |s| == 0 then 0 else ParseNat(s[..|s| - 1]) * 10 + DigitValue(s[|s| - 1])
  }

  /** Value of an optionally negated string of decimal digits. */
  function ParseInt(s: string): int
    requires |s| > 0
    requires if s[0] == '-' then AllDigits(s[1..]) else AllDigits(s)
  {
    if s[0] == '-' then -(ParseNat(s[1..]) as int) else ParseNat(s)
  }

  /** Reading the rendered digits back gives the number. */
  lemma {:induction false} ParseShowNat(n: nat)
    ensures ParseNat(ShowNat(n)) == n
    decreases n
  {
    if n >= 10 {
      var r := ShowNat(n);
      assert r[..|r| - 1] == ShowNat(n / 10);
      ParseShowNat(n / 10);
    }
  }

  /** Reading a rendered integer back gives the integer. */
  lemma ParseShowInt(i: int)
    ensures ParseInt(ShowInt(i)) == i
  {
    if i < 0 {
      assert ShowInt(i)[1..] == ShowNat(-i);
      ParseShowNat(-i);
    } else {
      ParseShowNat(i);
    }
  }
}

=== FILE: seqs.dfy ===
/** Order-preserving selection from sequences (`Array.prototype.filter`) and
    prefixes (`Array.prototype.slice(0, end)`), with the properties the
    components rely on. */
module Seqs {

  /** `s.filter(p)`: the elements satisfying `p`, in their original order. */
  function Filter<T>(s: seq<T>, p: T -> bool): (r: seq<T>)
    ensures |r| <= |s|
    ensures forall i :: 0 <= i < |r| ==> p(r[i])
  {
    if |s| == 0 then []
    else (if p(s[0]) then [s[0]] else []) + Filter(s[1..], p)
  }

  /** `a` can be obtained from `b` by deleting elements. */
  predicate IsSubsequence<T(==)>(a: seq<T>, b: seq<T>)
    decreases |b|
  {
    |a| == 0 ||
    (|b| > 0 &&
     ((a[0] == b[0] && IsSubsequence(a[1..], b[1..])) || IsSubsequence(a, b[1..])))
  }

  /** `r` is what keeping exactly the `p`-elements of `s`, in order, yields:
      a subsequence of `s` that holds every occurrence of every value
      satisfying `p` and nothing else. */
  ghost predicate Selects<T>(r: seq<T>, s: seq<T>, p: T -> bool)
  {
    && IsSubsequence(r, s)
    && (forall x | x in r :: p(x))
    && (forall x | x in s && p(x) :: multiset(r)[x] == multiset(s)[x])
  }

  lemma {:induction false} SubsequenceOfEmpty<T>(a: seq<T>)
    requires IsSubsequence(a, [])
    ensures a == []
  {
  }

  lemma {:induction false} SubsequenceMultiset<T>(a: seq<T>, b: seq<T>)
    requires IsSubsequence(a, b)
    ensures multiset(a) <= multiset(b)
    decreases |b|
  {
    if |a| == 0 {
    } else {
      assert b == [b[0]] + b[1..];
      if a[0] == b[0] && IsSubsequence(a[1..], b[1..]) {
        assert a == [a[0]] + a[1..];
        SubsequenceMultiset(a[1..], b[1..]);
      } else {
        SubsequenceMultiset(a, b[1..]);
      }
    }
  }

  lemma {:induction false} FilterIsSubsequence<T>(s: seq<T>, p: T -> bool)
    ensures IsSubsequence(Filter(s, p), s)
    decreases |s|
  {
    if |s| > 0 {
      FilterIsSubsequence(s[1..], p);
      var t := Filter(s[1..], p);
      if p(s[0]) {
        assert Filter(s, p) == [s[0]] + t;
        assert Filter(s, p)[1..] == t;
      } else {
        assert Filter(s, p) == t;
      }
    }
  }

  /** The filter keeps every occurrence of a value satisfying `p`, and no
      occurrence of any other value. */
  lemma {:induction false} FilterCount<T>(s: seq<T>, p: T -> bool, x: T)
    ensures multiset(Filter(s, p))[x] == if p(x) then multiset(s)[x] else 0
    decreases |s|
  {
    if |s| > 0 {
      FilterCount(s[1..], p, x);
      assert s == [s[0]] + s[1..];
      assert multiset(s)[x] == multiset([s[0]])[x] + multiset(s[1..])[x];
      var head: seq<T> := if p(s[0]) then [s[0]] else [];
      assert multiset(Filter(s, p))[x] == multiset(head)[x] + multiset(Filter(s[1..], p))[x];
    }
  }

  /** The filter result is the selection of the `p`-elements of its input. */
  lemma {:induction false} FilterSelects<T>(s: seq<T>, p: T -> bool)
    ensures Selects(Filter(s, p), s, p)
  {
    FilterIsSubsequence(s, p);
    forall x | x in s && p(x)
      ensures multiset(Filter(s, p))[x] == multiset(s)[x]
    {
      FilterCount(s, p, x);
    }
  }

  /** Conversely, a selection is unique: whatever sequence selects the
      `p`-elements of `s` is the filter result. */
  lemma {:induction false} SelectsIsFilter<T>(r: seq<T>, s: seq<T>, p: T -> bool)
    requires Selects(r, s, p)
    ensures r == Filter(s, p)
    decreases |s|
  {
    if |s| == 0 {
      SubsequenceOfEmpty(r);
    } else {
      var h := s[0];
      assert s == [h] + s[1..];
      if p(h) {
        assert multiset(r)[h] == multiset(s)[h] > 0;
        assert |r| > 0;
        assert r == [r[0]] + r[1..];
        if r[0] == h && IsSubsequence(r[1..], s[1..]) {
          forall x | x in s[1..] && p(x)
            ensures multiset(r[1..])[x] == multiset(s[1..])[x]
          {
            assert multiset(r)[x] == multiset([r[0]])[x] + multiset(r[1..])[x];
            assert multiset(s)[x] == multiset([h])[x] + multiset(s[1..])[x];
          }
          SelectsIsFilter(r[1..], s[1..], p);
        } else {
          SubsequenceMultiset(r, s[1..]);
          assert false;
        }
      } else {
        assert h !in r;
        if |r| > 0 {
          assert r == [r[0]] + r[1..];
          assert r[0] != h;
        }
        assert IsSubsequence(r, s[1..]);
        forall x | x in s[1..] && p(x)
          ensures multiset(r)[x] == multiset(s[1..])[x]
        {
          assert multiset(s)[x] == multiset([h])[x] + multiset(s[1..])[x];
        }
        SelectsIsFilter(r, s[1..], p);
      }
    }
  }

  /** An element survives the filter exactly when it is in the input and
      satisfies the predicate. */
  lemma {:induction false} FilterMembership<T>(s: seq<T>, p: T -> bool, x: T)
    ensures x in Filter(s, p) <==> x in s && p(x)
  {
    FilterSelects(s, p);
    var r := Filter(s, p);
    SubsequenceMultiset(r, s);
    if x in s && p(x) {
      assert multiset(r)[x] == multiset(s)[x] > 0;
    }
    if x in r {
      assert multiset(s)[x] >= multiset(r)[x] > 0;
    }
  }

  /** The membership characterisation for every value at once. */
  lemma FilterMembers<T>(s: seq<T>, p: T -> bool)
    ensures forall x :: x in Filter(s, p) <==> x in s && p(x)
  {
    forall x
      ensures x in Filter(s, p) <==> x in s && p(x)
    {
      FilterMembership(s, p, x);
    }
  }

  /** A filter that keeps everything is the identity. */
  lemma {:induction false} FilterKeepsAll<T>(s: seq<T>, p: T -> bool)
    requires forall i :: 0 <= i < |s| ==> p(s[i])
    ensures Filter(s, p) == s
    decreases |s|
  {
    if |s| > 0 {
      FilterKeepsAll(s[1..], p);
    }
  }

  /** Filtering distributes over concatenation. */
  lemma {:induction false} FilterAppend<T>(a: seq<T>, b: seq<T>, p: T -> bool)
    ensures Filter(a + b, p) == Filter(a, p) + Filter(b, p)
    decreases |a|
  {
    if |a| == 0 {
      assert a + b == b;
    } else {
      assert (a + b)[1..] == a[1..] + b;
      FilterAppend(a[1..], b, p);
    }
  }

  /** Filtering twice with the same predicate is filtering once. */
  lemma {:induction false} FilterIdempotent<T>(s: seq<T>, p: T -> bool)
    ensures Filter(Filter(s, p), p) == Filter(s, p)
  {
    FilterKeepsAll(Filter(s, p), p);
  }

  /** How many elements `s.slice(0, end)` keeps: a negative `end` counts from
      the back, and the result is clamped to `0..|s|`. */
  function SliceEnd(len: nat, end: int): (k: nat)
    ensures k <= len
    ensures end >= 0 ==> k == if end < len then end else len
    ensures end < 0 ==> k == if len + end > 0 then len + end else 0
  {
    if end < 0 then (if len + end > 0 then len + end else 0)
    else if end < len then end
    else len
  }

  /** `s.slice(0, end)`. */
  function Take<T>(s: seq<T>, end: int): (r: seq<T>)
    ensures |r| == SliceEnd(|s|, end)
    ensures forall i :: 0 <= i < |r| ==> r[i] == s[i]
  {
    s[..SliceEnd(|s|, end)]
  }

  /** Sum of an integer measure over a sequence (`reduce((sum, x) => sum + f(x), 0)`). */
  function Sum<T>(s: seq<T>, f: T -> int): int
  {
    if |s| == 0 then 0 else f(s[0]) + Sum(s[1..], f)
  }

  /** Summing distributes over concatenation, so a total over a list equals
      the total over any prefix plus the rest. */
  lemma {:induction false} SumAppend<T>(a: seq<T>, b: seq<T>, f: T -> int)
    ensures Sum(a + b, f) == Sum(a, f) + Sum(b, f)
    decreases |a|
  {
    if |a| == 0 {
      assert a + b == b;
    } else {
      assert (a + b)[1..] == a[1..] + b;
      SumAppend(a[1..], b, f);
    }
  }
}

=== FILE: server.dfy ===
/** The Express server's own request plumbing: the API log line written when a
    response finishes, the CORS origin allowlist with the headers it grants,
    and the status and message the final error handler replies with. */
module Server {
  import opened Common
  import Text
  import Numbers

  // ---------------------------------------------------------------------
  // API request log line
  // ---------------------------------------------------------------------

  /** The longest log line written, in code units. */
  const MaxLogLength := 80

  /** The character appended to a shortened line (U+2026). */
  const Ellipsis: char := '\U{2026}'

  /** The body captured from `res.json`: its `JSON.stringify` text and whether
      the value itself was truthy (an object or array is; `null`, `0`, `""`
      and `false` are not). */
  datatype JsonBody = JsonBody(text: string, truthy: bool)

  /** Whether a captured body is appended to the line. */
  predicate HasBody(captured: Option<JsonBody>)
  {
    captured.Some? && captured.value.truthy
  }

  /** The `STATUS in Dms` part of a log line. */
  function LogStamp(status: int, duration: int): string
  {
    (Numbers.ShowInt(status) + " ") + ("in " + (Numbers.ShowInt(duration) + "ms"))
  }

  /** `METHOD PATH STATUS in Dms`, then ` :: BODY` when a truthy body was
      captured. */
  function FormatLogLine(verb: string, path: string, status: int, duration: int,
                         captured: Option<JsonBody>): (line: string)
    ensures Text.StartsWith(line, verb + " " + path + " ")
    ensures Text.StartsWith(line, verb + " " + path + " " + LogStamp(status, duration))
    ensures HasBody(captured) ==> Text.EndsWith(line, " :: " + captured.value.text)
    ensures !HasBody(captured) ==> Text.EndsWith(line, Numbers.ShowInt(duration) + "ms")
  {
    var tail := if HasBody(captured) then " :: " + captured.value.text else "";
    var timing := Numbers.ShowInt(duration) + "ms";
    var rest := ("in " + timing) + tail;
    var fields := (Numbers.ShowInt(status) + " ") + rest;
    var head := verb + " " + path + " ";
    Text.StartsWithConcat(head, fields);
    LogLineStamp(head, Numbers.ShowInt(status) + " ", timing, tail);
    Text.StartsWithConcat(head + LogStamp(status, duration), tail);
    LogLineEnds(head, Numbers.ShowInt(status) + " ", timing, tail);
    head + fields
  }

  /** A log line is its head and stamp followed by the tail. */
  lemma LogLineStamp(head: string, status: string, timing: string, tail: string)
    ensures head + (status + (("in " + timing) + tail)) == (head + (status + ("in " + timing))) + tail
  {
    Regroup(status, "in " + timing, tail);
    Regroup(head, status + ("in " + timing), tail);
  }

  /** The two possible endings of a log line: the captured-body tail, and
      the timing when there is no tail. */
  lemma LogLineEnds(head: string, status: string, timing: string, tail: string)
    ensures Text.EndsWith(head + (status + (("in " + timing) + tail)), tail)
    ensures tail == "" ==> Text.EndsWith(head + (status + (("in " + timing) + tail)), timing)
  {
    var rest := ("in " + timing) + tail;
    Text.EndsWithConcat("in " + timing, tail);
    Text.EndsWithPrepend(status, rest, tail);
    Text.EndsWithPrepend(head, status + rest, tail);
    if tail == "" {
      assert rest == "in " + timing;
      Text.EndsWithConcat("in ", timing);
      Text.EndsWithPrepend(status, rest, timing);
      Text.EndsWithPrepend(head, status + rest, timing);
    }
  }

  /** Lines longer than 80 units keep their first 79 units and gain an
      ellipsis. */
  function Truncate(line: string): (r: string)
    ensures |r| <= MaxLogLength
    ensures |line| <= MaxLogLength ==> r == line
    ensures |line| > MaxLogLength ==>
      |r| == MaxLogLength && r[..MaxLogLength - 1] == line[..MaxLogLength - 1] && r[MaxLogLength - 1] == Ellipsis
  {
    if |line| > MaxLogLength then line[..MaxLogLength - 1] + [Ellipsis] else line
  }

  /** Shortening a line that was already shortened leaves it alone. */
  lemma TruncateIdempotent(line: string)
    ensures Truncate(Truncate(line)) == Truncate(line)
  {
  }

  /** The line logged when a response finishes, if any: only requests whose
      path starts with `/api` are logged, and the line is shortened to 80
      units. */
  function LogLine(verb: string, path: string, status: int, duration: int,
                   captured: Option<JsonBody>): (r: Option<string>)
    ensures r.Some? <==> Text.StartsWith(path, "/api")
    ensures r.Some? ==> |r.value| <= MaxLogLength
    ensures r.Some? && |FormatLogLine(verb, path, status, duration, captured)| <= MaxLogLength ==>
      r.value == FormatLogLine(verb, path, status, duration, captured)
    ensures r.Some? ==> r.value == Truncate(FormatLogLine(verb, path, status, duration, captured))
    ensures r.Some? && |FormatLogLine(verb, path, status, duration, captured)| > MaxLogLength ==>
      r.value == FormatLogLine(verb, path, status, duration, captured)[..MaxLogLength - 1] + [Ellipsis]
  {
    if Text.StartsWith(path, "/api") then
      Some(Truncate(FormatLogLine(verb, path, status, duration, captured)))
    else None
  }

  /** The prefix test is not a path-segment test: `/apiary` is logged too. */
  lemma PrefixNotSegment(path: string)
    requires path == "/apiary"
    ensures LogLine("GET", path, 200, 3, None).Some?
  {
    assert path[..4] == "/api";
  }

  // Reading the head of a line back

  /** Index of the first space, or the length when there is none. */
  function FirstSpace(s: string): (k: nat)
    ensures k <= |s|
    ensures forall i :: 0 <= i < k ==> s[i] != ' '
    ensures k < |s| ==> s[k] == ' '
  {
    if |s| == 0 || s[0] == ' ' then 0 else 1 + FirstSpace(s[1..])
  }

  /** The text before the first space and the text after it. */
  function NextField(s: string): (string, string)
  {
    var k := FirstSpace(s);
    (s[..k], if k < |s| then s[k + 1..] else "")
  }

  /** The verb, path and status a log line starts with. */
  datatype LogHead = LogHead(verb: string, path: string, status: int)

  /** Splits the first three space-separated fields of a line and reads the
      third as an integer. */
  function ReadHead(line: string): (r: Option<LogHead>)
    ensures r.Some? ==> ' ' !in r.value.verb && ' ' !in r.value.path
  {
    var (m, rest) := NextField(line);
    var (p, rest2) := NextField(rest);
    var (st, _) := NextField(rest2);
    if |st| > 0 && (if st[0] == '-' then Numbers.AllDigits(st[1..]) else Numbers.AllDigits(st)) then
      Some(LogHead(m, p, Numbers.ParseInt(st)))
    else None
  }

  /** A field without spaces is split off exactly. */
  lemma NextFieldOf(a: string, b: string)
    requires ' ' !in a
    ensures NextField(a + " " + b) == (a, b)
  {
    var s := a + " " + b;
    assert forall i :: 0 <= i < |a| ==> s[i] == a[i];
    assert s[|a|] == ' ';
    assert s[..|a|] == a;
    assert s[|a| + 1..] == b;
  }

  /** Concatenation regrouped to the right. */
  lemma Regroup(a: string, b: string, c: string)
    ensures (a + b) + c == a + (b + c)
  {
  }

  /** Rendered decimal integers contain no space. */
  lemma ShowIntHasNoSpace(i: int)
    ensures ' ' !in Numbers.ShowInt(i)
  {
    var s := Numbers.ShowInt(i);
    if i < 0 {
      assert forall k :: 1 <= k < |s| ==> s[k] == s[1..][k - 1];
    }
  }

  /** The verb, path and status can be read back from the line as it is
      formatted, whatever follows them. */
  lemma LogHeadRoundTrip(verb: string, path: string, status: int, duration: int,
                         captured: Option<JsonBody>)
    requires ' ' !in verb && ' ' !in path
    ensures ReadHead(FormatLogLine(verb, path, status, duration, captured)) == Some(LogHead(verb, path, status))
  {
    var st := Numbers.ShowInt(status);
    var tail := if HasBody(captured) then " :: " + captured.value.text else "";
    var rest2 := ("in " + (Numbers.ShowInt(duration) + "ms")) + tail;
    var fields := (st + " ") + rest2;
    var line := FormatLogLine(verb, path, status, duration, captured);
    assert line == ((verb + " ") + path + " ") + fields;
    Regroup(verb + " ", path, " ");
    Regroup(verb + " ", path + " ", fields);
    assert line == (verb + " ") + ((path + " ") + fields);
    NextFieldOf(verb, (path + " ") + fields);
    NextFieldOf(path, fields);
    ShowIntHasNoSpace(status);
    NextFieldOf(st, rest2);
    Numbers.ParseShowInt(status);
  }

  // ---------------------------------------------------------------------
  // CORS allowlist
  // ---------------------------------------------------------------------

  /** The two origins allowed by exact comparison. */
  const IsoHubOrigin := "https://iso-hub-domain.com"
  const MainSaasOrigin := "https://your-main-saas.com"

  /** The scheme and the two host suffixes of the regular-expression entries
      `https:\/\/.*\.replit\.app$` and `https:\/\/.*\.replit\.dev$`. */
  const Scheme := "https://"
  const ReplitApp := ".replit.app"
  const ReplitDev := ".replit.dev"

  /** The characters a regular-expression `.` does not match. */
  predicate IsLineTerminator(c: char)
  {
    c == '\n' || c == '\r' || c == '\U{2028}' || c == '\U{2029}'
  }

  predicate NoTerminator(s: string)
  {
    forall i :: 0 <= i < |s| ==> !IsLineTerminator(s[i])
  }

  /** `https://` occupies the eight units ending at `k`. */
  predicate SchemeEndsAt(o: string, k: int)
  {
    8 <= k <= |o| && o[k - 8..k] == Scheme
  }

  /** What the unanchored pattern `https:\/\/.*SUFFIX$` accepts: the origin
      ends with the suffix, and some `https://` before it is followed by
      line-terminator-free text up to that suffix. */
  ghost predicate PatternMatches(o: string, suffix: string)
  {
    var e := |o| - |suffix|;
    Text.EndsWith(o, suffix) && exists k :: ReachableFrom(o, k, e)
  }

  /** Walks back from `j` over non-terminators looking for the end of a
      `https://`. */
  function ScanBack(o: string, j: nat): bool
    requires j <= |o|
  {
    SchemeEndsAt(o, j) || (j > 0 && !IsLineTerminator(o[j - 1]) && ScanBack(o, j - 1))
  }

  /** A `https://` ending at `k` is followed by terminator-free text up to
      `j`. */
  predicate ReachableFrom(o: string, k: int, j: int)
    requires j <= |o|
  {
    SchemeEndsAt(o, k) && k <= j && NoTerminator(o[k..j])
  }

  /** Terminator-free text extends by one unit exactly when that unit is not
      a terminator. */
  lemma NoTerminatorExtend(o: string, k: nat, j: nat)
    requires k < j <= |o|
    ensures NoTerminator(o[k..j]) <==> NoTerminator(o[k..j - 1]) && !IsLineTerminator(o[j - 1])
  {
    if NoTerminator(o[k..j]) {
      assert o[k..j][j - 1 - k] == o[j - 1];
      var shorter := o[k..j - 1];
      forall i | 0 <= i < |shorter|
        ensures !IsLineTerminator(shorter[i])
      {
        assert shorter[i] == o[k..j][i];
      }
    }
    if NoTerminator(o[k..j - 1]) && !IsLineTerminator(o[j - 1]) {
      forall i | 0 <= i < j - k
        ensures !IsLineTerminator(o[k..j][i])
      {
        if i < j - 1 - k {
          assert o[k..j][i] == o[k..j - 1][i];
        }
      }
    }
  }

  /** Whatever the scan accepts is a genuine match. */
  lemma {:induction false} ScanBackSound(o: string, j: nat)
    requires j <= |o| && ScanBack(o, j)
    ensures exists k :: ReachableFrom(o, k, j)
  {
    if SchemeEndsAt(o, j) {
      assert ReachableFrom(o, j, j);
    } else {
      ScanBackSound(o, j - 1);
      var k :| ReachableFrom(o, k, j - 1);
      NoTerminatorExtend(o, k, j);
      assert ReachableFrom(o, k, j);
    }
  }

  /** The scan misses no match. */
  lemma {:induction false} ScanBackComplete(o: string, j: nat, k: int)
    requires j <= |o| && ReachableFrom(o, k, j)
    ensures ScanBack(o, j)
    decreases j
  {
    if k < j {
      NoTerminatorExtend(o, k, j);
      ScanBackComplete(o, j - 1, k);
    }
  }

  /** The backwards scan finds exactly the scheme ends reachable over
      terminator-free text. */
  lemma ScanBackFinds(o: string, j: nat)
    requires j <= |o|
    ensures ScanBack(o, j) <==> exists k :: ReachableFrom(o, k, j)
  {
    if ScanBack(o, j) {
      ScanBackSound(o, j);
    }
    if exists k :: ReachableFrom(o, k, j) {
      var k :| ReachableFrom(o, k, j);
      ScanBackComplete(o, j, k);
    }
  }

  /** `regex.test(origin)` for one of the replit patterns. */
  function ReplitMatch(o: string, suffix: string): (b: bool)
    ensures b ==> Text.EndsWith(o, suffix)
  {
    Text.EndsWith(o, suffix) && ScanBack(o, |o| - |suffix|)
  }

  /** The scan decides the pattern. */
  lemma ReplitMatchCorrect(o: string, suffix: string)
    ensures ReplitMatch(o, suffix) <==> PatternMatches(o, suffix)
  {
    if Text.EndsWith(o, suffix) {
      ScanBackFinds(o, |o| - |suffix|);
    }
  }

  /** `origin && allowedOrigins.some(...)`. */
  predicate OriginAllowed(origin: Option<string>)
  {
    TruthyString(origin) &&
    (origin.value == IsoHubOrigin || origin.value == MainSaasOrigin ||
     ReplitMatch(origin.value, ReplitApp) || ReplitMatch(origin.value, ReplitDev))
  }

  /** An origin is allowed exactly when it is present and either one of the
      two literal origins or accepted by one of the two patterns. */
  lemma OriginAllowedMeans(origin: Option<string>)
    ensures OriginAllowed(origin) <==>
      origin.Some? && origin.value != "" &&
      (origin.value in {IsoHubOrigin, MainSaasOrigin} ||
       PatternMatches(origin.value, ReplitApp) || PatternMatches(origin.value, ReplitDev))
  {
    if origin.Some? {
      ReplitMatchCorrect(origin.value, ReplitApp);
      ReplitMatchCorrect(origin.value, ReplitDev);
    }
  }

  /** The patterns are not anchored at the start: text before `https://` is
      accepted. */
  lemma UnanchoredStartAllowed(o: string)
    requires o == "xhttps://a.replit.dev"
    ensures OriginAllowed(Some(o))
  {
    assert o[|o| - |ReplitDev|..] == ReplitDev;
    assert o[1..9] == Scheme;
    assert ReachableFrom(o, 9, |o| - |ReplitDev|);
    ReplitMatchCorrect(o, ReplitDev);
  }

  /** A host under another domain is not allowed. */
  lemma OtherDomainRejected(o: string)
    requires o == "https://a.replit.com"
    ensures !OriginAllowed(Some(o))
  {
    assert o[|o| - 1] == 'm';
  }

  /** A response header. */
  datatype Header = Header(name: string, value: string)

  const AllowOrigin := "Access-Control-Allow-Origin"
  const AllowCredentials := "Access-Control-Allow-Credentials"
  const AllowMethods := "Access-Control-Allow-Methods"
  const AllowHeaders := "Access-Control-Allow-Headers"
  const FrameOptions := "X-Frame-Options"
  const ContentSecurityPolicy := "Content-Security-Policy"
  const FrameAncestors := "frame-ancestors 'self' https://*.replit.app https://*.replit.dev https://iso-hub-domain.com"

  /** The headers the first middleware sets: the framing policy on every
      response, and the four CORS headers for an allowed origin. */
  function CorsHeaders(origin: Option<string>): (hs: seq<Header>)
    ensures |hs| == (if OriginAllowed(origin) then 6 else 2)
    ensures hs[0] == Header(FrameOptions, "SAMEORIGIN")
    ensures hs[1] == Header(ContentSecurityPolicy, FrameAncestors)
  {
    var framing := [Header(FrameOptions, "SAMEORIGIN"), Header(ContentSecurityPolicy, FrameAncestors)];
    if OriginAllowed(origin) then
      framing + [Header(AllowOrigin, origin.value),
                 Header(AllowCredentials, "true"),
                 Header(AllowMethods, "GET, POST, PUT, DELETE, OPTIONS"),
                 Header(AllowHeaders, "Content-Type, Authorization, X-Requested-With")]
    else framing
  }

  /** The value of the last header set under a name (a later `setHeader`
      replaces an earlier one). */
  function HeaderValue(hs: seq<Header>, name: string): (r: Option<string>)
    ensures r.Some? ==> exists i :: 0 <= i < |hs| && hs[i] == Header(name, r.value)
    ensures r.None? ==> forall i :: 0 <= i < |hs| ==> hs[i].name != name
  {
    if |hs| == 0 then None
    else if hs[|hs| - 1].name == name then Some(hs[|hs| - 1].value)
    else HeaderValue(hs[..|hs| - 1], name)
  }

  /** An allowed origin is echoed verbatim with credentials allowed; any other
      request gets neither header. */
  lemma CorsEchoesOrigin(origin: Option<string>)
    ensures OriginAllowed(origin) ==>
      HeaderValue(CorsHeaders(origin), AllowOrigin) == Some(origin.value) &&
      HeaderValue(CorsHeaders(origin), AllowCredentials) == Some("true")
    ensures !OriginAllowed(origin) ==>
      HeaderValue(CorsHeaders(origin), AllowOrigin) == None &&
      HeaderValue(CorsHeaders(origin), AllowCredentials) == None
  {
    var hs := CorsHeaders(origin);
    if OriginAllowed(origin) {
      assert hs[..5][..4][..3] == hs[..3];
      assert HeaderValue(hs, AllowCredentials) == HeaderValue(hs[..5], AllowCredentials);
      assert HeaderValue(hs[..5], AllowCredentials) == HeaderValue(hs[..4], AllowCredentials);
      assert HeaderValue(hs, AllowOrigin) == HeaderValue(hs[..5], AllowOrigin);
      assert HeaderValue(hs[..5], AllowOrigin) == HeaderValue(hs[..4], AllowOrigin);
      assert HeaderValue(hs[..4], AllowOrigin) == HeaderValue(hs[..3], AllowOrigin);
    } else {
      assert hs[0].name != AllowOrigin && hs[1].name != AllowOrigin;
      assert hs[0].name != AllowCredentials && hs[1].name != AllowCredentials;
    }
  }

  // ---------------------------------------------------------------------
  // Final error handler
  // ---------------------------------------------------------------------

  /** The fields of a thrown error the handler reads. */
  datatype HttpError = HttpError(status: Option<int>, statusCode: Option<int>, message: Option<string>)

  /** The status and JSON `{ message }` the handler replies with. */
  datatype ErrorReply = ErrorReply(status: int, message: string)

  const DefaultStatus := 500
  const DefaultMessage := "Internal Server Error"

  /** `err.status || err.statusCode || 500` and `err.message || "Internal
      Server Error"`. */
  function ErrorResponse(err: HttpError): (r: ErrorReply)
    ensures r.status != 0 && r.message != ""
    ensures TruthyNumber(err.status) ==> r.status == err.status.value
    ensures !TruthyNumber(err.status) && TruthyNumber(err.statusCode) ==> r.status == err.statusCode.value
    ensures !TruthyNumber(err.status) && !TruthyNumber(err.statusCode) ==> r.status == DefaultStatus
    ensures TruthyString(err.message) ==> r.message == err.message.value
    ensures !TruthyString(err.message) ==> r.message == DefaultMessage
  {
    var status := if TruthyNumber(err.status) then err.status.value
                  else if TruthyNumber(err.statusCode) then err.statusCode.value
                  else DefaultStatus;
    ErrorReply(status, OrString(err.message, DefaultMessage))
  }

  /** An error carrying the reply's own status and message is answered with
      that same reply: the defaults are applied once and are stable. */
  lemma ErrorResponseStable(err: HttpError)
    ensures var r := ErrorResponse(err);
      ErrorResponse(HttpError(Some(r.status), None, Some(r.message))) == r
  {
  }
}

=== FILE: text.dfy ===
/** The JavaScript string operations the components use, on strings viewed as
    sequences of characters (one per UTF-16 code unit outside surrogate
    pairs): `trim`, ASCII `toLowerCase`, `includes`,
    `startsWith`, `endsWith`, and the digit class `[0-9]`. */
module Text {

  /** WhiteSpace and LineTerminator code points of ECMAScript, the set
      `String.prototype.trim` strips: TAB, LF, VT, FF, CR, SPACE, NBSP,
      OGHAM SPACE MARK, U+2000..U+200A, LS, PS, NNBSP, MMSP, IDEOGRAPHIC SPACE
      and ZWNBSP. */
  predicate IsJsWhitespace(c: char)
  {
    || c == '\t' || c == '\n' || c == '\U{000B}' || c == '\U{000C}' || c == '\r'
    || c == ' ' || c == '\U{00A0}' || c == '\U{1680}'
    || ('\U{2000}' <= c <= '\U{200A}')
    || c == '\U{2028}' || c == '\U{2029}' || c == '\U{202F}' || c == '\U{205F}'
    || c == '\U{3000}' || c == '\U{FEFF}'
  }

  /** Every code unit of `s` is whitespace (vacuously so for ""). */
  predicate IsBlank(s: string)
  {
    forall i :: 0 <= i < |s| ==> IsJsWhitespace(s[i])
  }

  /** Length of the whitespace run at the start of `s`. */
  function LeadingSpace(s: string): (n: nat)
    ensures n <= |s|
    ensures forall k :: 0 <= k < n ==> IsJsWhitespace(s[k])
    ensures n == |s| || !IsJsWhitespace(s[n])
  {
    if |s| == 0 || !IsJsWhitespace(s[0]) then 0 else 1 + LeadingSpace(s[1..])
  }

  /** Length of the whitespace run at the end of `s`. */
  function TrailingSpace(s: string): (n: nat)
    ensures n <= |s|
    ensures forall k :: |s| - n <= k < |s| ==> IsJsWhitespace(s[k])
    ensures n == |s| || !IsJsWhitespace(s[|s| - n - 1])
  {
    if |s| == 0 || !IsJsWhitespace(s[|s| - 1]) then 0
    else 1 + TrailingSpace(s[..|s| - 1])
  }

  /** `s.trim()`: the middle of `s` between its leading and trailing
      whitespace runs, which are all that is removed. */
  function Trim(s: string): (r: string)
    ensures r == "" <==> IsBlank(s)
    ensures r != "" ==> !IsJsWhitespace(r[0]) && !IsJsWhitespace(r[|r| - 1])
    ensures r != "" ==> LeadingSpace(s) + |r| + TrailingSpace(s) == |s|
                        && r == s[LeadingSpace(s)..LeadingSpace(s) + |r|]
  {
    if IsBlank(s) then ""
    else
      NonBlankCore(s);
      s[LeadingSpace(s)..|s| - TrailingSpace(s)]
  }

  /** A string with a non-whitespace code unit has a non-empty middle that
      starts and ends with non-whitespace. */
  lemma NonBlankCore(s: string)
    requires !IsBlank(s)
    ensures LeadingSpace(s) < |s| - TrailingSpace(s)
  {
    var k :| 0 <= k < |s| && !IsJsWhitespace(s[k]);
    assert LeadingSpace(s) <= k;
    assert k < |s| - TrailingSpace(s);
  }

  /** Trimming a trimmed string changes nothing. */
  lemma TrimIdempotent(s: string)
    ensures Trim(Trim(s)) == Trim(s)
  {
    var r := Trim(s);
    if r != "" {
      assert !IsJsWhitespace(r[0]);
      assert !IsBlank(r);
      assert LeadingSpace(r) == 0;
      assert TrailingSpace(r) == 0;
      assert r[0..|r|] == r;
    }
  }

  /** `toLowerCase` on one code unit, restricted to ASCII letters. */
  function LowerChar(c: char): (d: char)
  {
    if 'A' <= c <= 'Z' then (c as int + 32) as char else c
  }

  /** `s.toLowerCase()`, restricted to ASCII letters. */
  function Lower(s: string): (r: string)
    ensures |r| == |s|
    ensures forall i :: 0 <= i < |s| ==> r[i] == LowerChar(s[i])
  {
    seq(|s|, i requires 0 <= i < |s| => LowerChar(s[i]))
  }

  /** `s.startsWith(prefix)`. */
  predicate StartsWith(s: string, prefix: string)
  {
    |prefix| <= |s| && s[..|prefix|] == prefix
  }

  /** `s.endsWith(suffix)`. */
  predicate EndsWith(s: string, suffix: string)
  {
    |suffix| <= |s| && s[|s| - |suffix|..] == suffix
  }

  /** A concatenation starts with its first part. */
  lemma StartsWithConcat(a: string, b: string)
    ensures StartsWith(a + b, a)
  {
    assert (a + b)[..|a|] == a;
  }

  /** A concatenation ends with its last part. */
  lemma EndsWithConcat(a: string, b: string)
    ensures EndsWith(a + b, b)
  {
    assert (a + b)[|a|..] == b;
  }

  /** Prepending text keeps a suffix a suffix. */
  lemma EndsWithPrepend(a: string, s: string, suffix: string)
    requires EndsWith(s, suffix)
    ensures EndsWith(a + s, suffix)
  {
    assert (a + s)[|a + s| - |suffix|..] == s[|s| - |suffix|..];
  }

  /** `hay.includes(needle)`: `needle` occurs at some offset of `hay`. */
  predicate Contains(hay: string, needle: string)
    decreases |hay|
  {
    StartsWith(hay, needle) || (|hay| > 0 && Contains(hay[1..], needle))
  }

  /** The regular-expression class `[0-9]`. */
  predicate IsAsciiDigit(c: char)
  {
    '0' <= c <= '9'
  }
}
